=== FILE: README.md ===
# pycycle core, modelled in Dafny

pycycle finds circular imports in a Python project. It reads every `.py` file,
builds a graph with one node per path string of a module file, and records an
edge for each import that resolves to a file of the project. It then searches that graph
depth-first for cycles, drops cycles over the same set of modules, and prints
one line per remaining cycle, for example `a_module -> b_module: Line 1 =>> a_module`.

This project is a functional model of that core, `pycycle/utils.py`, with
proofs about it. It has seven modules:

- `Wrappers` (`wrappers.dfy`): `Option`, which stands in for Python's `None`.
- `Strings` (`strings.dfy`):
  - `str.split` and `str.join` on one separator character, with the round trips between them;
  - substring search, used for the `from \.` pattern;
  - decimal rendering of line numbers.
- `Paths` (`paths.dfy`):
  - `posixpath.normpath`, modelled completely and proved idempotent;
  - `posixpath.join` and `os.path.splitext`;
  - `get_path_from_package_name`.
- `ImportGraph` (`graph.dfy`):
  - the `Node` record and the graph, keyed by file path;
  - `_add_new_node` and `_add_missing_module`;
  - the well-formedness invariant `Valid` that every operation preserves.

  `Valid` states five things:
  - the insertion order lists each key exactly once;
  - each node is stored under its own path;
  - every import is a node;
  - every recorded importer is a node and has at least one line;
  - `s` imports `t` exactly as many times as `t` lists lines for `s`.
- `Reader` (`reader.dfy`), the body of `read_project`:
  - the dispatch on each parsed statement (`import`, `from M import`, `from . import`, class and function definitions);
  - the per-file handling, and the error flag;
  - the split of the nodes into roots and extra roots.
- `Search` (`search.dfy`):
  - `_register_cycle`;
  - the depth-first search `_detect_cycles`;
  - the roots pass and the non-roots pass of `detect_cycles`.
- `Report` (`report.dfy`):
  - the order-preserving dedup by node set, which is `CyclePath.__eq__`;
  - `CyclePath.description`;
  - `detect_cycles`;
  - the end-to-end theorems.

The model's inputs:

- The file system is a set of existing paths, `disk`.
- The directory walk is a sequence of `SourceFile`s in walk order. Each holds its directory, its file name, and either its parsed contents or `None` when reading or parsing failed.
- The parser's output for a file is its lines plus a sequence of `Stmt`s in `ast.walk` order.

The main results:

- `Report.ProjectCycles`: on the entry list that `read_project` returns, `detect_cycles` reports something exactly when the import graph, keyed by path strings, has a cycle.
- `Report.DetectCycles`: the report is empty exactly when the search registered nothing. It is always empty for an acyclic graph. When the entry list reaches every node within one import, it is non-empty exactly when the graph has a cycle.
- `Report.Reported`: every reported cycle is a genuine simple cycle, no two reported cycles share their set of nodes, and they keep the order in which the search registered them.
- `Search.VisitGood`: every cycle the search registers is genuine, and it starts at a node of the name it is stored under.
- `Reader.Partition`: the entry list has no duplicates and lists the roots first, each part in node insertion order. Every node is an entry or is imported directly by one.

Four behaviours of the code that a reader may not expect:

- **Names of a `from M import` (lines 173-177).** When `M` resolves to a file, the imported names are stored in the `func_imports` of the importing file's node. They are not stored on `M`'s node. They form a list in which repeats are kept.
- **The relative-import marker (lines 163-164).** The pattern `from \.` counts anywhere in the statement's line (`findall`), not only at its start.
- **A failing name in `from . import` (line 160).** The code passes the local variable `module` to `_add_missing_module`, not the name that failed.
  - `module` holds the last `M.name` tried by an earlier `from M import`. That import may be in the same file or an earlier one.
  - The model carries it as `State.lastModule`.
  - When no such name was ever tried, the lookup raises `NameError`. The `except` at line 182 catches it, the rest of the file is skipped, and `errors` is set. The model returns `Abandon` in this case.
- **Path keys are strings (lines 128 and 201).** A file the walk meets is keyed by `os.path.join(root, file_name)`, which is not normalised, while an import target is built from `os.path.normpath(root_path)`. With the root written `./p`, the file `a.py` gets the key `./p/a.py`, but `import a` resolves to `p/a.py`, a second node (`Paths.UnnormalisedRoot`). Two files that import each other then form no cycle in the graph, and nothing is reported. `Report.ProjectCycles` is about the graph keyed by these strings, so it does not see such a cycle either.

## Model

| member | source | states |
|---|---|---|
| Paths.PathFromPackageName | pycycle/utils.py:197-201 | the resolved path is empty exactly when the root or the dotted name is `None` or empty |
| Paths.PackagePathSuffix | pycycle/utils.py:200-201 | a resolved path ends with the dotted name, with dots turned into `/`, followed by `.py` |
| Paths.PackagePathShape | pycycle/utils.py:197-201 | for a name that starts with neither `.` nor `/`, the path is `normpath(root)`, then one separator unless that already ends in `/`, then the name with `/` for `.`, then `.py` |
| Paths.PackagePathInjective | pycycle/utils.py:197-201 | two such names that resolve to the same path below the same root are the same name |
| Paths.NormPath | pycycle/utils.py:201 | `normpath` never returns the empty string |
| Paths.NormPathIdempotent | pycycle/utils.py:201 | normalising a normalised path changes nothing |
| Paths.UnnormalisedRoot | pycycle/utils.py:197-201 | with the root written `./p`, the walk's key for `a.py` is `./p/a.py` while `import a` resolves to `p/a.py`: the two keys differ |
| Paths.PathJoin | pycycle/utils.py:201 | the result ends with the second part; unless the second part is absolute, it also starts with the first |
| Paths.PyExtension | pycycle/utils.py:125 | a file name has the `.py` extension exactly when it ends in `.py` and some character other than `.` comes before that suffix |
| Strings.JoinSplitIsReplace | pycycle/utils.py:200 | joining the parts of a split with a new separator is replacing the old separator by the new one |
| Strings.JoinSplit | pycycle/utils.py:200 | joining the parts of a split with the same separator gives the text back |
| Strings.SplitJoin | pycycle/utils.py:200 | splitting a join whose parts are free of the separator gives the parts back |
| Strings.Contains | pycycle/utils.py:163-164 | the pattern search succeeds exactly when the pattern occurs at some position of the line |
| Strings.NatToStringRoundTrip | pycycle/utils.py:285 | the rendered line number reads back as that number |
| ImportGraph.AddNewNode | pycycle/utils.py:60-85 | success exactly when the resolved path is a node or an existing file<br>on success: one target is appended to the importer's imports and `lineno` to the target's lines for the importer; an existing node is reused, a new node is named by the dotted name and has no imports and only that line<br>on failure: the graph is unchanged<br>only the importer's imports and the target's importer lines change; every node keeps its name, path and records |
| ImportGraph.AddNewNodeValid | pycycle/utils.py:71-84 | adding an edge keeps the graph well formed: one node per path, and edge counts match recorded lines |
| ImportGraph.WithNode | pycycle/utils.py:138-142 | a file's existing node is reused unchanged; otherwise a fresh node under that path is appended to the insertion order |
| ImportGraph.WithNodeValid | pycycle/utils.py:138-142 | creating a file's node keeps the graph well formed |
| ImportGraph.Link | pycycle/utils.py:81-83 | the importer gains one import of the target, and the target's lines for that importer gain `lineno`; the target's other importers keep their lines; nothing else changes |
| ImportGraph.LinkValid | pycycle/utils.py:81-83 | recording one edge keeps the graph well formed |
| ImportGraph.UpdateRecordValid | pycycle/utils.py:173-180 | replacing a node's recorded names or definitions, without touching its edges, keeps the graph well formed |
| ImportGraph.AddMissingModule | pycycle/utils.py:88-98 | the resolved path is in the result; the result's members are the old ones plus that path; the old list is a prefix; it grows by at most one and stays free of duplicates |
| Reader.NonEmpty | pycycle/utils.py:149-151 | exactly the non-empty names are tried, in their order and with every repeat (the result has one entry per non-empty name); a list without empty names is tried whole |
| Reader.ImportNames | pycycle/utils.py:148-153 | the importer gains exactly the targets below the project root of the non-empty names that resolve, in order; each failing non-empty name is recorded missing, and nothing else is; `module` and `errors` are unchanged; the graph stays well formed |
| Reader.TryImport | pycycle/utils.py:152-153 | on success one edge is added and nothing is recorded missing; on failure the graph is unchanged and the path is recorded missing |
| Reader.TryAllEdges | pycycle/utils.py:148-153 | the importer gains exactly the targets of the names that resolve, in the order of the names |
| Reader.TryAllMissing | pycycle/utils.py:148-153 | every name that fails leaves its path in the missing list; every new entry is such a path; no duplicates appear |
| Reader.TryAllValid | pycycle/utils.py:148-153 | trying names keeps the graph well formed |
| Reader.RelativeNames | pycycle/utils.py:155-160 | nodes are never removed; `module` and `errors` are unchanged |
| Reader.RelativeNamesAbandon | pycycle/utils.py:155-160 | a `from . import` abandons the file exactly when some name fails while `module` is still unbound; an abandoned import records nothing missing |
| Reader.RelativeNamesEdges | pycycle/utils.py:156-159 | when it completes, the importer gains exactly the targets in the file's directory of the names that resolve, in order |
| Reader.RelativeNamesMissing | pycycle/utils.py:159-160 | a failure records the path of the stale `module` below the file's directory, and nothing else; the list stays free of duplicates |
| Reader.RelativeNamesValid | pycycle/utils.py:155-160 | keeps the graph well formed, keeps which paths resolve, and keeps every node's name, path and recorded names |
| Reader.RelativeBase | pycycle/utils.py:162-165 | the base is the file's directory when the statement's line exists and contains `from .` anywhere; otherwise it is the project root |
| Reader.RecordNames | pycycle/utils.py:173-177 | the names are appended in order to those already at the line; an empty name list adds no entry |
| Reader.FromModule | pycycle/utils.py:161-177 | nodes are never removed and `errors` is unchanged |
| Reader.FromModuleResolved | pycycle/utils.py:161-177 | when `M` resolves: exactly one edge, to `M`'s file; the names are recorded at the line; nothing is recorded missing |
| Reader.FromModuleSubmodules | pycycle/utils.py:167-171 | when `M` does not resolve: one edge per resolving `M.name`, in order; exactly the failing ones are recorded missing; `module` becomes the last `M.name` |
| Reader.FromModuleValid | pycycle/utils.py:161-177 | keeps the graph well formed and the missing list free of duplicates |
| Reader.Define | pycycle/utils.py:179-180 | the definition's line is stored under its name on the file's node; the other definitions, and every other field of that node and of every other node, are unchanged |
| Reader.ProcessStmt | pycycle/utils.py:147-180 | only a pure-relative `from . import` can abandon the file; nodes are never removed |
| Reader.ProcessStmtValid | pycycle/utils.py:147-180 | every statement keeps the graph well formed and the missing list free of duplicates |
| Reader.ProcessStmtNames | pycycle/utils.py:73-77 | no statement renames a node: a node keeps the name given by whoever created it |
| Reader.ProcessBody | pycycle/utils.py:147-182 | the statements of a file never remove a node or change `errors` |
| Reader.ProcessBodyAbandon | pycycle/utils.py:147-182 | a file is abandoned only if it contains a pure-relative import |
| Reader.ProcessBodyValid | pycycle/utils.py:147-180 | processing a file's statements keeps the graph well formed and the missing list free of duplicates |
| Reader.Stem | pycycle/utils.py:141 | the stem followed by `.py` is the file name |
| Reader.ProcessFile | pycycle/utils.py:128-186 | a file that cannot be read or parsed only sets `errors`; otherwise its node exists afterwards, named by its stem if the file created it |
| Reader.ProcessFileValid | pycycle/utils.py:128-180 | one file keeps the graph well formed |
| Reader.ProcessFileClean | pycycle/utils.py:130-183 | a parsed file without a pure-relative import leaves `errors` unchanged |
| Reader.ProcessFiles | pycycle/utils.py:121-186 | the walk never removes a node, and once `errors` is set it stays set |
| Reader.ProcessFilesValid | pycycle/utils.py:121-186 | the whole walk keeps the graph well formed and the missing list free of duplicates |
| Reader.ProcessFilesNodes | pycycle/utils.py:125-142 | every `.py` file outside the ignore set that parses has a node under its path |
| Reader.ProcessFilesFailure | pycycle/utils.py:182-183 | any such file that fails to parse sets `errors` |
| Reader.ProcessFilesClean | pycycle/utils.py:130-183 | when every such file parses and none has a pure-relative import, `errors` is unchanged |
| Reader.ImportedFromAny | pycycle/utils.py:52-57 | true exactly when one of the given nodes imports the node at some line |
| Reader.RootsOf | pycycle/utils.py:192 | exactly the nodes without importers, in insertion order (a subsequence of the keys), without duplicates |
| Reader.ExtraRootsOf | pycycle/utils.py:193 | exactly the nodes with importers that no root imports directly, in insertion order (a subsequence of the keys), without duplicates |
| Reader.Partition | pycycle/utils.py:192-194 | in a well-formed graph the entry list is duplicate-free and made of nodes; it lists the roots first and then only non-roots, each part in insertion order; every root is in it, and every node is an entry or is imported by one |
| Reader.PartitionSpec | pycycle/utils.py:192-194 | the roots followed by the extra roots have the properties of the entry list above |
| Reader.PartitionCovers | pycycle/utils.py:192-194 | a non-root left out of the extra roots is imported by some root |
| Reader.ReadProject | pycycle/utils.py:101-194 | every `.py` file outside the ignore set that parses has a node in the result |
| Reader.ReadProjectValid | pycycle/utils.py:101-194 | the graph is well formed and the missing list has no duplicates; the entry list is duplicate-free, lists every root, and reaches every node within one import |
| Reader.ReadProjectErrors | pycycle/utils.py:112-186 | a file that fails to parse sets `errors`; when every file parses and none has a pure-relative import, `errors` stays false |
| Search.IndexOf | pycycle/utils.py:213 | the position holds the node and no earlier position does |
| Search.CycleAt | pycycle/utils.py:213-215 | the stored path starts with the node, is a suffix of the path, and the node does not occur before it |
| Search.Register | pycycle/utils.py:204-219 | the cycle is stored under the node's name unless a strictly shorter one is stored there, in which case nothing changes<br>a new name is appended to the order, an existing one keeps its place; other names are untouched<br>no stored cycle gets longer |
| Search.RegisterGood | pycycle/utils.py:213-219 | after registration every stored cycle is still a genuine simple cycle starting at a node of its name |
| Search.CycleAtIsCycle | pycycle/utils.py:213-215 | the stored suffix of a simple path whose last node imports the node is a simple cycle |
| Search.UnseenShrinks | pycycle/utils.py:232-237 | extending the path by a node not on it shrinks the set of nodes not on the path, so the search terminates |
| Search.Visit | pycycle/utils.py:222-244 | a search that returns false changes nothing; one that returns true leaves a non-empty registry; the registry only grows |
| Search.VisitAll | pycycle/utils.py:241-244 | a loop that returns false changes nothing; one that returns true leaves a non-empty registry; the registry only grows |
| Search.VisitAllFinds | pycycle/utils.py:241-244 | the loop does not stop at the first hit: whichever import starts a walk that ends on a node of the path or of the walk, the loop returns true |
| Search.VisitGood | pycycle/utils.py:222-244 | every cycle the search registers is a genuine simple cycle of the graph, starting at a node of the name it is stored under |
| Search.VisitFinds | pycycle/utils.py:222-244 | the search is exhaustive: if a walk from the node ends on a node of the path or of the walk itself, the search returns true |
| Search.Pass | pycycle/utils.py:303-314 | a pass only grows the registry |
| Search.PassGood | pycycle/utils.py:303-314 | a pass keeps every stored cycle genuine |
| Search.PassFinds | pycycle/utils.py:303-314 | a pass that searches a node of its kind from which a cycle is reachable leaves a non-empty registry |
| Search.SearchAll | pycycle/utils.py:302-314 | every stored cycle is genuine and stored under the name of its first node, so a non-empty registry means the graph has a cycle; when the entry nodes reach every node within one import, something is registered exactly when the graph has a cycle |
| Search.PassesSound | pycycle/utils.py:302-314 | after both passes every stored cycle is genuine, so a non-empty registry means the graph has a cycle |
| Search.PassesComplete | pycycle/utils.py:302-314 | when the entry nodes reach every node within one import, both passes register something exactly when the graph has a cycle |
| Report.AnySame | pycycle/utils.py:263-270 | `in` on the kept list is true exactly when a kept cycle holds the same set of nodes |
| Report.DedupIntoDrawn | pycycle/utils.py:316-321 | the dedup keeps only input cycles |
| Report.DedupIntoUnrelated | pycycle/utils.py:316-321 | no two kept cycles hold the same set of nodes |
| Report.DedupIntoCovers | pycycle/utils.py:316-321 | every input cycle has a kept cycle over the same nodes |
| Report.DedupIntoFirst | pycycle/utils.py:316-321 | the first cycle of each node set is the one kept |
| Report.DedupIntoOrder | pycycle/utils.py:316-321 | the cycles the dedup adds keep their input order |
| Report.Dedup | pycycle/utils.py:316-321 | the result is the input with some cycles dropped, in input order (a subsequence), no two over the same nodes; every input cycle is represented, the first of each node set is the one kept, and only an empty input gives an empty result |
| Report.CyclesOf | pycycle/utils.py:318 | the stored cycles, in the order their names were first registered |
| Report.Describe | pycycle/utils.py:272-292 | empty exactly for a cycle of at most one node; otherwise it starts with the first node's name and ends with ` =>> ` and that name |
| Report.DescribeMentions | pycycle/utils.py:280-286 | each later node appears as ` -> name: Line L`, where `L` is the first line at which its predecessor imports it |
| Report.DescribeTwo | pycycle/utils.py:277-290 | a two-node cycle reads `a -> b: Line L =>> a` |
| Report.DescribeSnoc | pycycle/utils.py:277-292 | adding a node `x` to a cycle of two or more inserts ` -> x: Line L` just before the closing ` =>> ` and first name, and changes nothing else; with the two-node case this fixes the whole text |
| Report.CycleDescribable | pycycle/utils.py:285 | in a well-formed graph every step of a genuine cycle has a first import line, so the lookup never fails |
| Report.Reported | pycycle/utils.py:302-321 | every reported cycle is a genuine simple cycle and can be described; no two hold the same nodes; they keep the order in which the search registered them; every registered cycle is represented; the list is empty exactly when nothing was registered |
| Report.ReportedGenuine | pycycle/utils.py:302-321 | every reported cycle is a genuine simple cycle of the graph |
| Report.DetectCycles | pycycle/utils.py:295-324 | one description per reported cycle, in order, each naming every import of its cycle with its first line; the report is empty exactly when the search registered nothing, always for an acyclic graph; when the entry list reaches every node within one import, it is non-empty exactly when the graph has a cycle |
| Report.ProjectCycles | pycycle/utils.py:295-324 | on the entries `read_project` returns, the report is non-empty exactly when the import graph, keyed by path strings, has a cycle |

## Left out

- `pycycle/config.py` (reading a JSON configuration file): it is file I/O with no logic of its own.
- The directory walk and the pruning of ignored directories (lines 121-123): the walk is an input, a sequence of files in walk order. The file filter of line 125 is modelled as `IsSourceFile`.
- `os.path.realpath` and `basename` of the caller's ignore entries (line 118): the caller's names are taken as base names already.
- Opening, decoding and reading files, and the Python 2 `open_func` switch (lines 14-17, 129-133). A file that cannot be read or parsed has `content == None`.
- A file that cannot be opened at all: the `open` at line 129 lies outside the `try`, so `read_project` raises. The model assumes every listed file opens.
- `ast.parse` and `ast.walk` (lines 134, 147): the parser's output is given as the statement sequence.
- `click.echo`, `crayons` colours, the logger, and the final error message (lines 135-136, 184-185, 188-190, 238-240): output only. `Describe` gives the plain text without colour codes.
- The `verbose` flag: the model fixes it to false. With `verbose` true, line 186 calls `traceback.format_exc(e)`, which takes the exception as its `limit` argument; comparing it with `0` raises `TypeError` inside the `except` block, so the first file that fails to read or parse ends `read_project` with that error and no project is returned. The progress messages of lines 238-240 and 305-313 are output only.
- `Node.marked`, `parent`, `is_in_context`, `__iter__` and `__repr__`, and the unused local `root_node`: nothing in the core reads them. `Node.add` (lines 46-47) is the append in `ImportGraph.Link`.
- `CyclePath.__hash__` (lines 256-261): the dedup uses list membership, which calls only `__eq__`.
- The empty list that the `defaultdict` read at line 55 inserts into `is_imported_from`. It only happens for nodes that already have an importer, so root status is unaffected. The model reads an absent importer as no lines.
- Exceptions other than a failed read or parse and the unbound `module` of line 160: with `verbose` false, no other statement of the loop raises on the inputs the model admits (with `verbose` true, see the line above).
- Paths follow POSIX only: `os.sep` is `/`, and `NormPath` and `PathJoin` model `posixpath`, not the Windows rules of `ntpath` (drive letters, `\` separators).
- Line numbers are `nat`, since the parser reports lines from 1.
- Describe: requires each node of the cycle to be imported by its predecessor at some line. The code raises `IndexError` at line 285 otherwise. `Report.CycleDescribable` shows that this always holds for the cycles the search registers.
- DetectCycles: requires a well-formed graph, which is what `read_project` produces (`Reader.ReadProjectValid`). The code accepts any list of nodes.
- Visit: `_detect_cycles` (lines 222-244) recurses once per node on the path, so a chain of imports deeper than Python's recursion limit raises `RecursionError`. The model has no depth limit and always returns.
- Visit: requires every import to be a node of the graph, which holds for every graph `read_project` builds (part of `Valid`).
- PackagePathShape: requires the dotted name to start with neither `.` nor `/`. The parser never produces such a module name: relative levels are not part of `ast.ImportFrom.module`.

=== FILE: graph.dfy ===
/**
 The import graph: one node per module file, keyed by the file's path, with the
 imports it makes (in discovery order) and the lines at which each importer
 imports it. Adding an import edge and recording an unresolved import.
 */
module ImportGraph {
  import opened Wrappers
  import opened Strings
  import opened Paths

  /**
   One project module. `imports` holds the path keys of the imported modules,
   one entry per successful resolution; `importedFrom` maps an importer's path
   to the lines at which it imports this module (only non-empty lists are
   stored: an absent key reads as no lines); `funcImports` maps a line to the
   names a `from` import at that line took from a module file; `funcDefs` maps
   a class or function name to its line.
   */
  datatype Node = Node(
    name: string,
    fullPath: string,
    imports: seq<string>,
    importedFrom: map<string, seq<nat>>,
    funcImports: map<nat, seq<string>>,
    funcDefs: map<string, nat>)

  function NewNode(name: string, fullPath: string): Node {
    Node(name, fullPath, [], map[], map[], map[])
  }

  /** Nodes by path, with `order` the insertion order of the paths. */
  datatype Graph = Graph(order: seq<string>, nodes: map<string, Node>)

  function EmptyGraph(): Graph {
    Graph([], map[])
  }

  /** The lines at which `importer` imports `n`; none when it does not. */
  function Lines(n: Node, importer: string): seq<nat> {
    if importer in n.importedFrom then n.importedFrom[importer] else []
  }

  /** A module with no importer at all (Python: `len(node.is_imported_from) == 0`). */
  predicate IsRoot(n: Node) {
    |n.importedFrom| == 0
  }

  /** The insertion order lists every key exactly once. */
  ghost predicate OrderMatches(g: Graph) {
    && Distinct(g.order)
    && (forall i :: 0 <= i < |g.order| ==> g.order[i] in g.nodes)
    && (forall k :: k in g.nodes ==> k in g.order)
  }

  /** Each node is stored under its own path. */
  ghost predicate PathsAgree(g: Graph) {
    forall k :: k in g.nodes ==> g.nodes[k].fullPath == k
  }

  /** Every import refers to a node of the graph. */
  ghost predicate Closed(g: Graph) {
    forall k, i :: k in g.nodes && 0 <= i < |g.nodes[k].imports| ==> g.nodes[k].imports[i] in g.nodes
  }

  /** Every recorded importer is a node of the graph and imports at some line. */
  ghost predicate IncomingKnown(g: Graph) {
    forall t, s :: t in g.nodes && s in g.nodes[t].importedFrom ==> s in g.nodes && g.nodes[t].importedFrom[s] != []
  }

  /** `s` imports `t` exactly as many times as `t` records lines for importer `s`. */
  ghost predicate EdgesConsistent(g: Graph) {
    forall s, t {:trigger Lines(g.nodes[t], s)} :: s in g.nodes && t in g.nodes ==> multiset(g.nodes[s].imports)[t] == |Lines(g.nodes[t], s)|
  }

  /** The shape every graph the scanner builds keeps. */
  ghost predicate Valid(g: Graph) {
    && OrderMatches(g)
    && PathsAgree(g)
    && Closed(g)
    && IncomingKnown(g)
    && EdgesConsistent(g)
  }

  /** Every node is in `entry` or is imported by a node of `entry`. */
  ghost predicate Covers(g: Graph, entry: seq<string>) {
    forall k :: k in g.nodes ==> k in entry || exists e :: e in entry && e in g.nodes && k in g.nodes[e].imports
  }

  /** `os.path.isfile`, for a given set of existing files: the empty path is never a file. */
  predicate IsFile(disk: set<string>, p: string) {
    p != "" && p in disk
  }

  /** The file a dotted `name` resolves to below the directory `base`. */
  function Target(base: string, name: string): string {
    PathFromPackageName(Some(base), Some(name))
  }

  /** Two records agree on everything but their edges. */
  predicate SameRecord(a: Node, b: Node) {
    a.name == b.name && a.fullPath == b.fullPath && a.funcImports == b.funcImports && a.funcDefs == b.funcDefs
  }

  /** The node stored under `p`, created under the dotted `name` when there is none yet. */
  function WithNode(g: Graph, p: string, name: string): (r: Graph)
    ensures p in r.nodes && r.nodes.Keys == g.nodes.Keys + {p}
    ensures p in g.nodes ==> r == g
    ensures p !in g.nodes ==> r.order == g.order + [p] && r.nodes[p] == NewNode(name, p)
    ensures forall k :: k in g.nodes ==> r.nodes[k] == g.nodes[k]
  {
    if p in g.nodes then g else Graph(g.order + [p], g.nodes[p := NewNode(name, p)])
  }

  /** Creating a node for a path keeps the graph's shape. */
  lemma WithNodeValid(g: Graph, p: string, name: string)
    ensures Valid(g) ==> Valid(WithNode(g, p, name))
  {
    if Valid(g) && p !in g.nodes {
      var h := WithNode(g, p, name);
      assert OrderMatches(h) by {
        assert p !in g.order;
        assert OrderMatches(g);
      }
      assert PathsAgree(h) by {
        assert PathsAgree(g);
      }
      assert Closed(h) by {
        assert Closed(g);
        forall k, i | k in h.nodes && 0 <= i < |h.nodes[k].imports|
          ensures h.nodes[k].imports[i] in h.nodes
        {
          if k != p {
            assert g.nodes[k].imports[i] in g.nodes;
          }
        }
      }
      assert IncomingKnown(h) by {
        assert IncomingKnown(g);
        forall t, s | t in h.nodes && s in h.nodes[t].importedFrom
          ensures s in h.nodes && h.nodes[t].importedFrom[s] != []
        {
          if t != p {
            assert s in g.nodes[t].importedFrom;
          }
        }
      }
      assert EdgesConsistent(h) by {
        NewNodeEdges(g, h, p, name);
      }
    }
  }

  lemma NewNodeEdges(g: Graph, h: Graph, p: string, name: string)
    requires Closed(g) && IncomingKnown(g) && EdgesConsistent(g)
    requires p !in g.nodes && h == WithNode(g, p, name)
    ensures EdgesConsistent(h)
  {
    forall s, t | s in h.nodes && t in h.nodes
      ensures multiset(h.nodes[s].imports)[t] == |Lines(h.nodes[t], s)|
    {
      if s == p {
        if t != p {
          assert s !in g.nodes[t].importedFrom;
        }
      } else if t == p {
        assert forall i :: 0 <= i < |g.nodes[s].imports| ==> g.nodes[s].imports[i] != p;
        assert t !in multiset(g.nodes[s].imports);
      } else {
        assert multiset(g.nodes[s].imports)[t] == |Lines(g.nodes[t], s)|;
      }
    }
  }

  /** `lineno` appended to the lines at which `importer` imports `p`. */
  function AddLine(g: Graph, p: string, importer: string, lineno: nat): (r: Graph)
    requires p in g.nodes
    ensures r.order == g.order && r.nodes.Keys == g.nodes.Keys
    ensures forall k :: k in g.nodes ==> r.nodes[k].imports == g.nodes[k].imports
    ensures forall k :: k in g.nodes ==> SameRecord(r.nodes[k], g.nodes[k])
    ensures forall k :: k in g.nodes && k != p ==> r.nodes[k].importedFrom == g.nodes[k].importedFrom
    ensures r.nodes[p].importedFrom == g.nodes[p].importedFrom[importer := Lines(g.nodes[p], importer) + [lineno]]
  {
    var target := g.nodes[p];
    g.(nodes := g.nodes[p := target.(importedFrom := target.importedFrom[importer := Lines(target, importer) + [lineno]])])
  }

  /** `p` appended to the imports of `importer`. */
  function AddImport(g: Graph, importer: string, p: string): (r: Graph)
    requires importer in g.nodes
    ensures r.order == g.order && r.nodes.Keys == g.nodes.Keys
    ensures forall k :: k in g.nodes && k != importer ==> r.nodes[k].imports == g.nodes[k].imports
    ensures r.nodes[importer].imports == g.nodes[importer].imports + [p]
    ensures forall k :: k in g.nodes ==> SameRecord(r.nodes[k], g.nodes[k])
    ensures forall k :: k in g.nodes ==> r.nodes[k].importedFrom == g.nodes[k].importedFrom
  {
    var source := g.nodes[importer];
    g.(nodes := g.nodes[importer := source.(imports := source.imports + [p])])
  }

  /**
   One more import of `p` by `importer` at `lineno`: the importer's imports grow
   by `p` and `p`'s lines for the importer grow by `lineno`; nothing else changes.
   */
  function Link(g: Graph, importer: string, p: string, lineno: nat): (r: Graph)
    requires importer in g.nodes && p in g.nodes
    ensures r.order == g.order && r.nodes.Keys == g.nodes.Keys
    ensures forall k :: k in g.nodes ==>
              r.nodes[k].imports == if k == importer then g.nodes[k].imports + [p] else g.nodes[k].imports
    ensures forall k, s :: k in g.nodes ==>
              Lines(r.nodes[k], s) == if k == p && s == importer then Lines(g.nodes[k], s) + [lineno] else Lines(g.nodes[k], s)
    ensures forall k :: k in g.nodes ==>
              r.nodes[k].importedFrom.Keys == if k == p then g.nodes[k].importedFrom.Keys + {importer} else g.nodes[k].importedFrom.Keys
    ensures forall k :: k in g.nodes && k != p ==> r.nodes[k].importedFrom == g.nodes[k].importedFrom
    ensures r.nodes[p].importedFrom == g.nodes[p].importedFrom[importer := Lines(g.nodes[p], importer) + [lineno]]
    ensures forall k :: k in g.nodes ==> SameRecord(r.nodes[k], g.nodes[k])
  {
    AddImport(AddLine(g, p, importer, lineno), importer, p)
  }

  /** Adding one edge between existing nodes keeps the graph's shape. */
  lemma LinkValid(g: Graph, importer: string, p: string, lineno: nat)
    requires Valid(g) && importer in g.nodes && p in g.nodes
    ensures Valid(Link(g, importer, p, lineno))
  {
    var h := Link(g, importer, p, lineno);
    assert OrderMatches(h) by {
      assert OrderMatches(g);
    }
    assert PathsAgree(h) by {
      assert PathsAgree(g);
    }
    LinkClosed(g, h, importer, p, lineno);
    LinkIncoming(g, h, importer, p, lineno);
    LinkEdges(g, h, importer, p, lineno);
  }

  lemma LinkClosed(g: Graph, h: Graph, importer: string, p: string, lineno: nat)
    requires Closed(g) && importer in g.nodes && p in g.nodes
    requires h == Link(g, importer, p, lineno)
    ensures Closed(h)
  {
    forall k, i | k in h.nodes && 0 <= i < |h.nodes[k].imports|
      ensures h.nodes[k].imports[i] in h.nodes
    {
      if k != importer || i < |g.nodes[k].imports| {
        assert h.nodes[k].imports[i] == g.nodes[k].imports[i];
      }
    }
  }

  lemma LinkIncoming(g: Graph, h: Graph, importer: string, p: string, lineno: nat)
    requires IncomingKnown(g) && importer in g.nodes && p in g.nodes
    requires h == Link(g, importer, p, lineno)
    ensures IncomingKnown(h)
  {
    forall t, s | t in h.nodes && s in h.nodes[t].importedFrom
      ensures s in h.nodes && h.nodes[t].importedFrom[s] != []
    {
      assert Lines(h.nodes[t], s) == h.nodes[t].importedFrom[s];
      if !(t == p && s == importer) {
        assert s in g.nodes[t].importedFrom;
        assert Lines(g.nodes[t], s) == g.nodes[t].importedFrom[s];
      }
    }
  }

  lemma LinkEdges(g: Graph, h: Graph, importer: string, p: string, lineno: nat)
    requires EdgesConsistent(g) && importer in g.nodes && p in g.nodes
    requires h == Link(g, importer, p, lineno)
    ensures EdgesConsistent(h)
  {
    forall s, t | s in h.nodes && t in h.nodes
      ensures multiset(h.nodes[s].imports)[t] == |Lines(h.nodes[t], s)|
    {
      LinkEdgePair(g, h, importer, p, lineno, s, t);
    }
  }

  lemma LinkEdgePair(g: Graph, h: Graph, importer: string, p: string, lineno: nat, s: string, t: string)
    requires importer in g.nodes && p in g.nodes && s in g.nodes && t in g.nodes
    requires multiset(g.nodes[s].imports)[t] == |Lines(g.nodes[t], s)|
    requires h == Link(g, importer, p, lineno)
    ensures multiset(h.nodes[s].imports)[t] == |Lines(h.nodes[t], s)|
  {
    var before := g.nodes[s].imports;
    if s == importer {
      assert h.nodes[s].imports == before + [p];
      assert multiset(before + [p]) == multiset(before) + multiset{p};
      if t == p {
        assert Lines(h.nodes[t], s) == Lines(g.nodes[t], s) + [lineno];
      } else {
        assert Lines(h.nodes[t], s) == Lines(g.nodes[t], s);
      }
    } else {
      assert h.nodes[s].imports == before;
      assert Lines(h.nodes[t], s) == Lines(g.nodes[t], s);
    }
  }

  /**
   `_add_new_node`: resolve `name` below `base`; when the path is a known node or
   an existing file, reuse or create its node (created nodes are named by the
   dotted `name`), record `lineno` for `importer` on it and append it to
   `importer`'s imports. The flag says whether the edge was added.
   */
  function AddNewNode(g: Graph, disk: set<string>, base: string, name: string, lineno: nat, importer: string)
    : (r: (Graph, bool))
    requires importer in g.nodes
    ensures r.1 <==> Target(base, name) in g.nodes || IsFile(disk, Target(base, name))
    ensures !r.1 ==> r.0 == g
    ensures r.1 ==> r.0.nodes.Keys == g.nodes.Keys + {Target(base, name)}
    ensures r.1 ==> r.0.nodes[importer].imports == g.nodes[importer].imports + [Target(base, name)]
    ensures r.1 && Target(base, name) in g.nodes ==>
              && r.0.order == g.order
              && Lines(r.0.nodes[Target(base, name)], importer) == Lines(g.nodes[Target(base, name)], importer) + [lineno]
              && r.0.nodes[Target(base, name)].importedFrom
                 == g.nodes[Target(base, name)].importedFrom[importer := Lines(g.nodes[Target(base, name)], importer) + [lineno]]
    ensures r.1 && Target(base, name) !in g.nodes ==>
              && r.0.order == g.order + [Target(base, name)]
              && SameRecord(r.0.nodes[Target(base, name)], NewNode(name, Target(base, name)))
              && r.0.nodes[Target(base, name)].imports == []
              && r.0.nodes[Target(base, name)].importedFrom == map[importer := [lineno]]
              && r.0.nodes[Target(base, name)].importedFrom.Keys == {importer}
              && Lines(r.0.nodes[Target(base, name)], importer) == [lineno]
    ensures forall k :: k in g.nodes ==> SameRecord(r.0.nodes[k], g.nodes[k])
    ensures forall k :: k in g.nodes && k != importer ==> r.0.nodes[k].imports == g.nodes[k].imports
    ensures forall k :: k in g.nodes && k != Target(base, name) ==> r.0.nodes[k].importedFrom == g.nodes[k].importedFrom
  {
    var p := Target(base, name);
    if p in g.nodes || IsFile(disk, p) then
      (Attach(g, p, name, importer, lineno), true)
    else
      (g, false)
  }

  /** The node for `p`, created if missing, gains one import by `importer` at `lineno`. */
  function Attach(g: Graph, p: string, name: string, importer: string, lineno: nat): (r: Graph)
    requires importer in g.nodes
    ensures r.nodes.Keys == g.nodes.Keys + {p}
    ensures r.nodes[importer].imports == g.nodes[importer].imports + [p]
    ensures p in g.nodes ==>
              && r.order == g.order
              && Lines(r.nodes[p], importer) == Lines(g.nodes[p], importer) + [lineno]
              && r.nodes[p].importedFrom == g.nodes[p].importedFrom[importer := Lines(g.nodes[p], importer) + [lineno]]
    ensures p !in g.nodes ==>
              && r.order == g.order + [p]
              && SameRecord(r.nodes[p], NewNode(name, p))
              && r.nodes[p].imports == []
              && r.nodes[p].importedFrom == map[importer := [lineno]]
              && r.nodes[p].importedFrom.Keys == {importer}
              && Lines(r.nodes[p], importer) == [lineno]
    ensures forall k :: k in g.nodes ==> SameRecord(r.nodes[k], g.nodes[k])
    ensures forall k :: k in g.nodes && k != importer ==> r.nodes[k].imports == g.nodes[k].imports
    ensures forall k :: k in g.nodes && k != p ==> r.nodes[k].importedFrom == g.nodes[k].importedFrom
  {
    var g1 := WithNode(g, p, name);
    assert p !in g.nodes ==> g1.nodes[p] == NewNode(name, p) && Lines(g1.nodes[p], importer) == [];
    assert p !in g.nodes ==> [] + [lineno] == [lineno];
    Link(g1, importer, p, lineno)
  }

  /** Adding an edge keeps the graph's shape. */
  lemma AddNewNodeValid(g: Graph, disk: set<string>, base: string, name: string, lineno: nat, importer: string)
    requires importer in g.nodes
    ensures Valid(g) ==> Valid(AddNewNode(g, disk, base, name, lineno, importer).0)
  {
    var p := Target(base, name);
    if Valid(g) && (p in g.nodes || IsFile(disk, p)) {
      WithNodeValid(g, p, name);
      LinkValid(WithNode(g, p, name), importer, p, lineno);
    }
  }

  /** The node under `k` replaced by `n`, which keeps `k`'s edges and path. */
  function UpdateRecord(g: Graph, k: string, n: Node): (r: Graph)
    requires k in g.nodes
    requires n.fullPath == g.nodes[k].fullPath
    requires n.imports == g.nodes[k].imports && n.importedFrom == g.nodes[k].importedFrom
    ensures r.order == g.order && r.nodes.Keys == g.nodes.Keys && r.nodes[k] == n
    ensures forall j :: j in g.nodes && j != k ==> r.nodes[j] == g.nodes[j]
  {
    g.(nodes := g.nodes[k := n])
  }

  /** Replacing a record without touching its edges or path keeps the graph's shape. */
  lemma UpdateRecordValid(g: Graph, k: string, n: Node)
    requires k in g.nodes
    requires n.fullPath == g.nodes[k].fullPath
    requires n.imports == g.nodes[k].imports && n.importedFrom == g.nodes[k].importedFrom
    ensures Valid(g) ==> Valid(UpdateRecord(g, k, n))
  {
    if Valid(g) {
      UpdateRecordOrder(g, k, n);
      UpdateRecordEdges(g, k, n);
    }
  }

  lemma UpdateRecordOrder(g: Graph, k: string, n: Node)
    requires k in g.nodes
    requires n.fullPath == g.nodes[k].fullPath
    requires n.imports == g.nodes[k].imports && n.importedFrom == g.nodes[k].importedFrom
    requires OrderMatches(g) && PathsAgree(g)
    ensures OrderMatches(UpdateRecord(g, k, n)) && PathsAgree(UpdateRecord(g, k, n))
  {
  }

  lemma UpdateRecordEdges(g: Graph, k: string, n: Node)
    requires k in g.nodes
    requires n.fullPath == g.nodes[k].fullPath
    requires n.imports == g.nodes[k].imports && n.importedFrom == g.nodes[k].importedFrom
    requires Closed(g) && IncomingKnown(g) && EdgesConsistent(g)
    ensures Closed(UpdateRecord(g, k, n)) && IncomingKnown(UpdateRecord(g, k, n))
    ensures EdgesConsistent(UpdateRecord(g, k, n))
  {
    UpdateRecordClosed(g, k, n);
    UpdateRecordIncoming(g, k, n);
    UpdateRecordConsistent(g, k, n);
  }

  lemma UpdateRecordClosed(g: Graph, k: string, n: Node)
    requires k in g.nodes
    requires n.fullPath == g.nodes[k].fullPath
    requires n.imports == g.nodes[k].imports && n.importedFrom == g.nodes[k].importedFrom
    requires Closed(g)
    ensures Closed(UpdateRecord(g, k, n))
  {
    var r := UpdateRecord(g, k, n);
    forall j, i | j in r.nodes && 0 <= i < |r.nodes[j].imports| ensures r.nodes[j].imports[i] in r.nodes {
      assert r.nodes[j].imports == g.nodes[j].imports;
    }
  }

  lemma UpdateRecordIncoming(g: Graph, k: string, n: Node)
    requires k in g.nodes
    requires n.fullPath == g.nodes[k].fullPath
    requires n.imports == g.nodes[k].imports && n.importedFrom == g.nodes[k].importedFrom
    requires IncomingKnown(g)
    ensures IncomingKnown(UpdateRecord(g, k, n))
  {
    var r := UpdateRecord(g, k, n);
    assert forall j :: j in r.nodes ==> r.nodes[j].importedFrom == g.nodes[j].importedFrom;
  }

  lemma UpdateRecordConsistent(g: Graph, k: string, n: Node)
    requires k in g.nodes
    requires n.fullPath == g.nodes[k].fullPath
    requires n.imports == g.nodes[k].imports && n.importedFrom == g.nodes[k].importedFrom
    requires EdgesConsistent(g)
    ensures EdgesConsistent(UpdateRecord(g, k, n))
  {
    var r := UpdateRecord(g, k, n);
    forall s, t | s in r.nodes && t in r.nodes
      ensures multiset(r.nodes[s].imports)[t] == |Lines(r.nodes[t], s)|
    {
      assert r.nodes[s].imports == g.nodes[s].imports;
      assert Lines(r.nodes[t], s) == Lines(g.nodes[t], s);
    }
  }

  /**
   `_add_missing_module`: record the path `name` resolves to below `base`
   unless it is already recorded; earlier entries keep their order.
   */
  function AddMissingModule(missing: seq<string>, base: string, name: string): (r: seq<string>)
    ensures Target(base, name) in r
    ensures forall x :: x in r <==> x in missing || x == Target(base, name)
    ensures |missing| <= |r| <= |missing| + 1 && r[..|missing|] == missing
    ensures Distinct(missing) ==> Distinct(r)
  {
    var p := Target(base, name);
    if p in missing then missing else missing + [p]
  }
}

=== FILE: paths.dfy ===
/**
 POSIX path handling as the scanner uses it: `posixpath.normpath`,
 `posixpath.join`, `os.path.splitext`, and the translation of a dotted
 module name into the path of its `.py` file.
 */
module Paths {
  import opened Wrappers
  import opened Strings

  /** Leading separators `normpath` keeps: exactly two are kept as two, any other number as one. */
  function LeadingSlashes(p: string): (k: nat)
    ensures k <= 2
    ensures k == 0 <==> !StartsWith(p, "/")
  {
    if StartsWith(p, "//") && !StartsWith(p, "///") then 2
    else if StartsWith(p, "/") then 1
    else 0
  }

  function SlashPrefix(k: nat): string
    requires k <= 2
  {
    if k == 2 then "//" else if k == 1 then "/" else ""
  }

  /**
   The component loop of `normpath`: empty and `.` components vanish, `..` removes
   the previous component unless there is none to remove (then it is kept on a
   relative path and dropped on an absolute one) or the previous one is `..` too.
   */
  function Collapse(comps: seq<string>, acc: seq<string>, absolute: bool): seq<string>
    decreases |comps|
  {
    if comps == [] then acc
    else
      var c := comps[0];
      var acc' :=
        if c == "" || c == "." then acc
        else if c != ".." || (!absolute && acc == []) || (acc != [] && acc[|acc| - 1] == "..") then acc + [c]
        else if acc != [] then acc[..|acc| - 1]
        else acc;
      Collapse(comps[1..], acc', absolute)
  }

  /** `posixpath.normpath(p)`. */
  function NormPath(p: string): (r: string)
    ensures r != ""
  {
    if p == "" then "."
    else
      var k := LeadingSlashes(p);
      var s := SlashPrefix(k) + Join(Collapse(Split(p, '/'), [], k > 0), '/');
      if s == "" then "." else s
  }

  /**
   Components in normal form: none empty, none `.`, none holding a separator,
   and `..` only in a leading run of a relative path.
   */
  ghost predicate Normal(comps: seq<string>, absolute: bool) {
    && (forall i :: 0 <= i < |comps| ==> comps[i] != "" && comps[i] != "." && '/' !in comps[i])
    && (forall i :: 0 <= i < |comps| && comps[i] == ".." ==> !absolute && forall j :: 0 <= j < i ==> comps[j] == "..")
  }

  /** The component loop only ever produces components in normal form. */
  lemma {:induction false} CollapseNormal(comps: seq<string>, acc: seq<string>, absolute: bool)
    requires Normal(acc, absolute)
    requires forall i :: 0 <= i < |comps| ==> '/' !in comps[i]
    ensures Normal(Collapse(comps, acc, absolute), absolute)
    decreases |comps|
  {
    if comps != [] {
      var c := comps[0];
      if c == "" || c == "." {
        CollapseNormal(comps[1..], acc, absolute);
      } else if c != ".." || (!absolute && acc == []) || (acc != [] && acc[|acc| - 1] == "..") {
        var acc' := acc + [c];
        assert acc'[..|acc|] == acc;
        CollapseNormal(comps[1..], acc', absolute);
      } else if acc != [] {
        CollapseNormal(comps[1..], acc[..|acc| - 1], absolute);
      } else {
        CollapseNormal(comps[1..], acc, absolute);
      }
    }
  }

  /** Components already in normal form pass through the loop unchanged. */
  lemma {:induction false} CollapseFixed(comps: seq<string>, acc: seq<string>, absolute: bool)
    requires Normal(acc + comps, absolute)
    ensures Collapse(comps, acc, absolute) == acc + comps
    decreases |comps|
  {
    if comps != [] {
      var c := comps[0];
      assert (acc + comps)[|acc|] == c;
      if c == ".." && acc != [] {
        assert (acc + comps)[|acc| - 1] == acc[|acc| - 1];
      }
      assert acc + [c] + comps[1..] == acc + comps;
      CollapseFixed(comps[1..], acc + [c], absolute);
    }
  }

  /** A joined list of non-empty components starts with the first component's first character. */
  lemma JoinHead(comps: seq<string>)
    requires comps != [] && comps[0] != ""
    ensures Join(comps, '/') != [] && Join(comps, '/')[0] == comps[0][0]
  {
  }

  /** A leading separator contributes one empty component to the split. */
  lemma SplitLeadingSlash(x: string)
    ensures Split("/" + x, '/') == [""] + Split(x, '/')
  {
    assert ("/" + x)[1..] == x;
  }

  /** The split of normal components, as the component loop sees it. */
  lemma SplitOfNormal(comps: seq<string>, absolute: bool)
    requires Normal(comps, absolute)
    ensures Collapse(Split(Join(comps, '/'), '/'), [], absolute) == comps
  {
    if comps == [] {
      assert Split("", '/') == [""];
    } else {
      SplitJoin(comps, '/');
      CollapseFixed(comps, [], absolute);
    }
  }

  /** Normal components joined never start with a separator. */
  lemma NormalJoinRelative(comps: seq<string>, absolute: bool)
    requires Normal(comps, absolute)
    ensures Join(comps, '/') == "" || Join(comps, '/')[0] != '/'
  {
    if comps != [] {
      JoinHead(comps);
    }
  }

  /** `normpath` of a non-empty path, without the final empty-result case. */
  lemma NormPathOf(s: string, k: nat, comps: seq<string>)
    requires s != "" && k == LeadingSlashes(s)
    requires comps == Collapse(Split(s, '/'), [], k > 0)
    requires SlashPrefix(k) + Join(comps, '/') == s
    ensures NormPath(s) == s
  {
  }

  /** A path made of a kept separator prefix and normal components is its own normal form. */
  lemma NormalFormFixed(k: nat, comps: seq<string>)
    requires k <= 2
    requires Normal(comps, k > 0)
    requires SlashPrefix(k) + Join(comps, '/') != ""
    ensures NormPath(SlashPrefix(k) + Join(comps, '/')) == SlashPrefix(k) + Join(comps, '/')
  {
    var j := Join(comps, '/');
    SplitOfNormal(comps, k > 0);
    NormalJoinRelative(comps, k > 0);
    if k == 0 {
      assert LeadingSlashes(j) == 0;
      NormPathOf(j, 0, comps);
    } else if k == 1 {
      OneSlashFixed(j, comps);
    } else {
      TwoSlashesFixed(j, comps);
    }
  }

  lemma OneSlashFixed(j: string, comps: seq<string>)
    requires j == Join(comps, '/')
    requires j == "" || j[0] != '/'
    requires Collapse(Split(j, '/'), [], true) == comps
    ensures NormPath("/" + j) == "/" + j
  {
    var s := "/" + j;
    SplitLeadingSlash(j);
    assert !StartsWith(s, "//") by {
      if |s| >= 2 {
        assert s[1] == j[0];
      }
    }
    assert LeadingSlashes(s) == 1;
    assert Collapse(Split(s, '/'), [], true) == comps;
    NormPathOf(s, 1, comps);
  }

  lemma TwoSlashesFixed(j: string, comps: seq<string>)
    requires j == Join(comps, '/')
    requires j == "" || j[0] != '/'
    requires Collapse(Split(j, '/'), [], true) == comps
    ensures NormPath("//" + j) == "//" + j
  {
    var s := "//" + j;
    assert s == "/" + ("/" + j);
    SplitLeadingSlash(j);
    SplitLeadingSlash("/" + j);
    var sj := Split(j, '/');
    assert Split(s, '/') == [""] + ([""] + sj);
    assert ([""] + ([""] + sj))[1..] == [""] + sj;
    assert ([""] + sj)[1..] == sj;
    assert Collapse(Split(s, '/'), [], true) == comps;
    assert StartsWith(s, "//");
    assert !StartsWith(s, "///") by {
      if |s| >= 3 {
        assert s[2] == j[0];
      }
    }
    assert LeadingSlashes(s) == 2;
    NormPathOf(s, 2, comps);
  }

  /** Normalising a normalised path changes nothing. */
  lemma NormPathIdempotent(p: string)
    ensures NormPath(NormPath(p)) == NormPath(p)
  {
    if p != "" {
      var k := LeadingSlashes(p);
      var parts := Split(p, '/');
      var comps := Collapse(parts, [], k > 0);
      CollapseNormal(parts, [], k > 0);
      if SlashPrefix(k) + Join(comps, '/') != "" {
        NormalFormFixed(k, comps);
      }
    }
    assert "."[1..] == "";
    assert Split(".", '/') == [['.'] + ""];
  }

  /** `posixpath.join(a, b)`: `b` alone when it is absolute, otherwise `a` and `b` with one separator between. */
  function PathJoin(a: string, b: string): (r: string)
    ensures EndsWith(r, b)
    ensures !StartsWith(b, "/") ==> StartsWith(r, a)
  {
    if StartsWith(b, "/") then b
    else if a == "" || EndsWith(a, "/") then a + b
    else a + "/" + b
  }

  /**
   The module file a dotted name denotes below `root`: `""` when either is absent
   or empty, otherwise the normalised root joined with the dot-separated segments
   as directories, plus `.py`.
   */
  function PathFromPackageName(root: Option<string>, pkg: Option<string>): (r: string)
    ensures r == "" <==> (root == None || root == Some("") || pkg == None || pkg == Some(""))
  {
    if pkg == None || pkg.value == "" || root == None || root.value == "" then ""
    else PathJoin(NormPath(root.value), Join(Split(pkg.value, '.'), '/') + ".py")
  }

  /** A resolved path always ends with the dotted name, dots turned into separators, and `.py`. */
  lemma PackagePathSuffix(root: string, pkg: string)
    requires root != "" && pkg != ""
    ensures EndsWith(PathFromPackageName(Some(root), Some(pkg)), Replace(pkg, '.', '/') + ".py")
  {
    JoinSplitIsReplace(pkg, '.', '/');
  }

  /** The separator `join` puts between a directory and a relative name. */
  function Separator(dir: string): string {
    if dir == "" || EndsWith(dir, "/") then "" else "/"
  }

  /**
   For a name not starting with a dot or a separator (every name the parser reports), the path
   is the normalised root, a separator, the name with dots turned into separators,
   and `.py`.
   */
  lemma PackagePathShape(root: string, pkg: string)
    requires root != "" && pkg != "" && pkg[0] != '.' && pkg[0] != '/'
    ensures PathFromPackageName(Some(root), Some(pkg))
         == NormPath(root) + Separator(NormPath(root)) + Replace(pkg, '.', '/') + ".py"
  {
    var rel := Replace(pkg, '.', '/') + ".py";
    JoinSplitIsReplace(pkg, '.', '/');
    assert PathFromPackageName(Some(root), Some(pkg)) == PathJoin(NormPath(root), rel);
    assert rel[0] == pkg[0];
    PathJoinRelative(NormPath(root), rel);
  }

  /** Joining a relative name puts exactly the separator `Separator` between. */
  lemma PathJoinRelative(a: string, b: string)
    requires b != [] && b[0] != '/'
    ensures PathJoin(a, b) == a + Separator(a) + b
  {
    assert b[..1] != "/" by {
      assert b[..1][0] == b[0];
    }
  }

  lemma SplitDotP()
    ensures Split("./p", '/') == [".", "p"]
  {
    assert "./p"[1..] == "/p" && "/p"[1..] == "p" && "p"[1..] == "";
    assert Split("", '/') == [""];
    assert ['p'] + "" == "p" && ['.'] + "" == ".";
    assert Split("p", '/') == ["p"];
    assert Split("/p", '/') == ["", "p"];
  }

  lemma NormPathDotP()
    ensures NormPath("./p") == "p"
  {
    SplitDotP();
    assert Collapse([".", "p"], [], false) == ["p"] by {
      assert Collapse(["p"], [], false) == Collapse([], ["p"], false);
    }
    assert LeadingSlashes("./p") == 0;
    assert Join(["p"], '/') == "p";
  }

  /**
   A root written `./p` is normalised for import targets but not for the files
   the walk meets below it: `import a` resolves to `p/a.py`, while the file
   `a.py` of that directory is joined to `./p/a.py`, a different string.
   */
  lemma UnnormalisedRoot()
    ensures PathJoin("./p", "a.py") == "./p/a.py"
    ensures PathFromPackageName(Some("./p"), Some("a")) == "p/a.py"
    ensures PathJoin("./p", "a.py") != PathFromPackageName(Some("./p"), Some("a"))
  {
    NormPathDotP();
    assert "a"[1..] == "" && ['a'] + "" == "a";
    assert Split("", '.') == [""];
    assert Split("a", '.') == ["a"];
    assert Join(["a"], '/') + ".py" == "a.py";
    assert !StartsWith("a.py", "/") && !EndsWith("./p", "/") && !EndsWith("p", "/");
    assert "./p" + "/" + "a.py" == "./p/a.py" && "p" + "/" + "a.py" == "p/a.py";
  }

  /** Below one root, distinct dotted names without separators resolve to distinct files. */
  lemma PackagePathInjective(root: string, a: string, b: string)
    requires root != "" && a != "" && b != "" && a[0] != '.' && b[0] != '.'
    requires '/' !in a && '/' !in b
    requires PathFromPackageName(Some(root), Some(a)) == PathFromPackageName(Some(root), Some(b))
    ensures a == b
  {
    PackagePathShape(root, a);
    PackagePathShape(root, b);
    var head := NormPath(root) + Separator(NormPath(root));
    var ra := Replace(a, '.', '/');
    var rb := Replace(b, '.', '/');
    assert head + ra + ".py" == head + rb + ".py";
    assert |ra| == |rb|;
    assert ra == (head + ra + ".py")[|head|..|head| + |ra|];
    assert rb == (head + rb + ".py")[|head|..|head| + |rb|];
    forall i | 0 <= i < |a| ensures a[i] == b[i] {
      assert ra[i] == rb[i];
      assert a[i] != '/' && b[i] != '/';
    }
  }

  /** Position of the last `c` in `s`, or -1. */
  function LastIndexOf(s: string, c: char): (r: int)
    ensures -1 <= r < |s|
    ensures r >= 0 ==> s[r] == c
    ensures forall j :: r < j < |s| ==> s[j] != c
  {
    if s == [] then -1
    else if s[|s| - 1] == c then |s| - 1
    else LastIndexOf(s[..|s| - 1], c)
  }

  /**
   `os.path.splitext(p)[1]`: from the last dot when that dot follows the last
   separator and some character between them is not a dot; otherwise empty.
   */
  function Extension(p: string): string {
    var sepIndex := LastIndexOf(p, '/');
    var dotIndex := LastIndexOf(p, '.');
    if dotIndex > sepIndex && exists i :: sepIndex < i < dotIndex && p[i] != '.' then p[dotIndex..]
    else ""
  }

  /**
   A base name has the `.py` extension exactly when it ends in `.py` and has a
   character other than a dot before that suffix.
   */
  lemma PyExtension(name: string)
    requires '/' !in name
    ensures Extension(name) == ".py" <==>
            EndsWith(name, ".py") && exists i :: 0 <= i < |name| - 3 && name[i] != '.'
  {
    var dotIndex := LastIndexOf(name, '.');
    assert LastIndexOf(name, '/') == -1;
    if Extension(name) == ".py" {
      assert name[dotIndex..] == ".py";
      assert dotIndex == |name| - 3;
    }
    if EndsWith(name, ".py") {
      assert name[|name| - 3] == '.';
      assert dotIndex == |name| - 3;
    }
  }
}

=== FILE: reader.dfy ===
/**
 Building the import graph from the parsed project: the per-statement dispatch
 of `read_project` (plain imports, `from M import ...`, pure-relative
 `from . import ...`, class/function definitions), the per-file handling and
 the final split of the nodes into roots and extra roots.
 */
module Reader {
  import opened Wrappers
  import opened Strings
  import opened Paths
  import opened ImportGraph

  /** What the parser reports, in `ast.walk` order. */
  datatype Stmt =
    | Import(names: seq<string>, lineno: nat)
    | ImportFrom(moduleName: Option<string>, names: seq<string>, lineno: nat)
    | Definition(name: string, lineno: nat)

  /** A parsed file: its text split into lines and its statements. */
  datatype Parsed = Parsed(lines: seq<string>, body: seq<Stmt>)

  /** A file met by the directory walk; `content` is `None` when reading or parsing failed. */
  datatype SourceFile = SourceFile(dir: string, fileName: string, content: Option<Parsed>)

  /**
   What the scan carries from statement to statement and file to file. `lastModule`
   is the value of the local `module`, last assigned while trying `M.name`
   submodules, and still visible to later statements and files.
   */
  datatype State = State(graph: Graph, missing: seq<string>, lastModule: Option<string>, errors: bool)

  /** The file being scanned: project root, its directory, its path and its lines. */
  datatype Context = Context(rootPath: string, dir: string, path: string, lines: seq<string>, disk: set<string>)

  /** The outcome of a statement: go on, or abandon the rest of the file (an exception). */
  datatype Step = Continue(state: State) | Abandon(state: State)

  /** A resolution succeeds when the path is a known node or an existing file. */
  predicate Resolvable(g: Graph, disk: set<string>, p: string) {
    p in g.nodes || IsFile(disk, p)
  }

  /** The targets of the names that resolve below `base`, in order. */
  function Resolved(g: Graph, disk: set<string>, base: string, names: seq<string>): (r: seq<string>)
    ensures |r| <= |names|
    ensures forall i :: 0 <= i < |r| ==> Resolvable(g, disk, r[i])
  {
    if names == [] then []
    else
      (if Resolvable(g, disk, Target(base, names[0])) then [Target(base, names[0])] else [])
      + Resolved(g, disk, base, names[1..])
  }

  /** The names that are not empty, in order. */
  function NonEmpty(names: seq<string>): (r: seq<string>)
    ensures forall n :: n in r <==> n in names && n != ""
    ensures Subsequence(r, names)
    ensures (forall i :: 0 <= i < |names| ==> names[i] != "") ==> r == names
    ensures |r| == |names| - multiset(names)[""]
  {
    if names == [] then []
    else
      var rest := NonEmpty(names[1..]);
      assert names == [names[0]] + names[1..];
      assert multiset(names) == multiset{names[0]} + multiset(names[1..]);
      if names[0] != "" then
        SubsequenceCons(names[0], rest, names[1..]);
        [names[0]] + rest
      else
        SubsequenceSkip(names[0], rest, names[1..]);
        rest
  }

  /** Each `prefix + "." + name`. */
  function Dotted(prefix: string, names: seq<string>): (r: seq<string>)
    ensures |r| == |names|
    ensures forall i :: 0 <= i < |names| ==> r[i] == prefix + "." + names[i]
  {
    if names == [] then [] else [prefix + "." + names[0]] + Dotted(prefix, names[1..])
  }

  /** Adding a resolvable node leaves every path exactly as resolvable as before. */
  lemma ResolvableStable(g: Graph, h: Graph, disk: set<string>, p: string)
    requires Resolvable(g, disk, p)
    requires h.nodes.Keys == g.nodes.Keys + {p}
    ensures forall q :: Resolvable(h, disk, q) <==> Resolvable(g, disk, q)
  {
  }

  /** `Resolved` depends on the graph only through what is resolvable. */
  lemma {:induction false} ResolvedStable(g: Graph, h: Graph, disk: set<string>, base: string, names: seq<string>)
    requires forall q :: Resolvable(h, disk, q) <==> Resolvable(g, disk, q)
    ensures Resolved(h, disk, base, names) == Resolved(g, disk, base, names)
    decreases |names|
  {
    if names != [] {
      ResolvedStable(g, h, disk, base, names[1..]);
    }
  }

  /** Adding an edge changes nothing about which paths resolve. */
  lemma AddNewNodeResolvable(g: Graph, disk: set<string>, base: string, name: string, lineno: nat, importer: string)
    requires importer in g.nodes
    ensures forall q :: Resolvable(AddNewNode(g, disk, base, name, lineno, importer).0, disk, q) <==> Resolvable(g, disk, q)
  {
    var r := AddNewNode(g, disk, base, name, lineno, importer);
    if r.1 {
      ResolvableStable(g, r.0, disk, Target(base, name));
    }
  }

  /** One resolution attempt of `name` below `base`: an edge on success, a missing entry otherwise. */
  function TryImport(ctx: Context, st: State, base: string, name: string, lineno: nat): (r: State)
    requires ctx.path in st.graph.nodes
    ensures st.graph.nodes.Keys <= r.graph.nodes.Keys
    ensures forall q :: Resolvable(r.graph, ctx.disk, q) <==> Resolvable(st.graph, ctx.disk, q)
    ensures Resolvable(st.graph, ctx.disk, Target(base, name)) ==>
              r.graph.nodes[ctx.path].imports == st.graph.nodes[ctx.path].imports + [Target(base, name)] && r.missing == st.missing
    ensures !Resolvable(st.graph, ctx.disk, Target(base, name)) ==>
              r.graph == st.graph && r.missing == AddMissingModule(st.missing, base, name)
    ensures r.lastModule == st.lastModule && r.errors == st.errors
    ensures forall k :: k in st.graph.nodes ==> SameRecord(r.graph.nodes[k], st.graph.nodes[k])
    ensures Valid(st.graph) ==> Valid(r.graph)
  {
    var added := AddNewNode(st.graph, ctx.disk, base, name, lineno, ctx.path);
    AddNewNodeValid(st.graph, ctx.disk, base, name, lineno, ctx.path);
    AddNewNodeResolvable(st.graph, ctx.disk, base, name, lineno, ctx.path);
    if added.1 then st.(graph := added.0)
    else st.(missing := AddMissingModule(st.missing, base, name))
  }

  /** One resolution attempt per name, in order, all below `base`. */
  function TryAll(ctx: Context, st: State, base: string, names: seq<string>, lineno: nat): (r: State)
    requires ctx.path in st.graph.nodes
    ensures st.graph.nodes.Keys <= r.graph.nodes.Keys
    ensures |st.missing| <= |r.missing| && r.missing[..|st.missing|] == st.missing
    ensures r.lastModule == st.lastModule && r.errors == st.errors
    decreases |names|
  {
    if names == [] then st
    else TryAll(ctx, TryImport(ctx, st, base, names[0], lineno), base, names[1..], lineno)
  }

  /** Trying names never changes which paths resolve. */
  lemma {:induction false} TryAllResolvable(ctx: Context, st: State, base: string, names: seq<string>, lineno: nat)
    requires ctx.path in st.graph.nodes
    ensures forall q :: Resolvable(TryAll(ctx, st, base, names, lineno).graph, ctx.disk, q) <==> Resolvable(st.graph, ctx.disk, q)
    decreases |names|
  {
    if names != [] {
      TryAllResolvable(ctx, TryImport(ctx, st, base, names[0], lineno), base, names[1..], lineno);
    }
  }

  /** The importer gains exactly one edge per name that resolves, in the order of the names. */
  lemma {:induction false} TryAllEdges(ctx: Context, st: State, base: string, names: seq<string>, lineno: nat)
    requires ctx.path in st.graph.nodes
    ensures TryAll(ctx, st, base, names, lineno).graph.nodes[ctx.path].imports
         == st.graph.nodes[ctx.path].imports + Resolved(st.graph, ctx.disk, base, names)
    decreases |names|
  {
    if names != [] {
      var st' := TryImport(ctx, st, base, names[0], lineno);
      var p := Target(base, names[0]);
      var before := st.graph.nodes[ctx.path].imports;
      var first: seq<string> := if Resolvable(st.graph, ctx.disk, p) then [p] else [];
      var rest := Resolved(st.graph, ctx.disk, base, names[1..]);
      assert st'.graph.nodes[ctx.path].imports == before + first;
      assert Resolved(st.graph, ctx.disk, base, names) == first + rest;
      TryAllEdges(ctx, st', base, names[1..], lineno);
      ResolvedStable(st.graph, st'.graph, ctx.disk, base, names[1..]);
      SeqAssoc(before, first, rest);
    }
  }

  lemma SeqAssoc<T>(a: seq<T>, b: seq<T>, c: seq<T>)
    ensures a + b + c == a + (b + c)
  {
  }

  /**
   Every name that does not resolve leaves its path in the missing list, and
   every path added there is such a name's.
   */
  lemma {:induction false} TryAllMissing(ctx: Context, st: State, base: string, names: seq<string>, lineno: nat)
    requires ctx.path in st.graph.nodes
    ensures forall n :: n in names && !Resolvable(st.graph, ctx.disk, Target(base, n)) ==>
              Target(base, n) in TryAll(ctx, st, base, names, lineno).missing
    ensures forall x :: x in TryAll(ctx, st, base, names, lineno).missing ==>
              x in st.missing || exists n :: n in names && !Resolvable(st.graph, ctx.disk, Target(base, n)) && x == Target(base, n)
    ensures Distinct(st.missing) ==> Distinct(TryAll(ctx, st, base, names, lineno).missing)
    decreases |names|
  {
    if names != [] {
      var st' := TryImport(ctx, st, base, names[0], lineno);
      TryAllMissing(ctx, st', base, names[1..], lineno);
      var r := TryAll(ctx, st', base, names[1..], lineno);
      assert r == TryAll(ctx, st, base, names, lineno);
      forall x | x in st'.missing ensures x in r.missing {
        var i :| 0 <= i < |st'.missing| && st'.missing[i] == x;
        assert r.missing[i] == x;
      }
      assert forall n :: n in names[1..] ==> n in names;
    }
  }

  /** Trying names changes no existing node's name, path or recorded names. */
  lemma {:induction false} TryAllRecords(ctx: Context, st: State, base: string, names: seq<string>, lineno: nat)
    requires ctx.path in st.graph.nodes
    ensures forall k :: k in st.graph.nodes ==> SameRecord(TryAll(ctx, st, base, names, lineno).graph.nodes[k], st.graph.nodes[k])
    decreases |names|
  {
    if names != [] {
      TryAllRecords(ctx, TryImport(ctx, st, base, names[0], lineno), base, names[1..], lineno);
    }
  }

  /** Trying names keeps the graph's shape. */
  lemma {:induction false} TryAllValid(ctx: Context, st: State, base: string, names: seq<string>, lineno: nat)
    requires ctx.path in st.graph.nodes
    ensures Valid(st.graph) ==> Valid(TryAll(ctx, st, base, names, lineno).graph)
    decreases |names|
  {
    if names != [] {
      TryAllValid(ctx, TryImport(ctx, st, base, names[0], lineno), base, names[1..], lineno);
    }
  }

  /**
   The names of a plain `import a.b, c` (the `ast.Import` branch): each non-empty
   name is resolved below the project root.
   */
  function ImportNames(ctx: Context, st: State, names: seq<string>, lineno: nat): (r: State)
    requires ctx.path in st.graph.nodes
    ensures st.graph.nodes.Keys <= r.graph.nodes.Keys
    ensures r.graph.nodes[ctx.path].imports
         == st.graph.nodes[ctx.path].imports + Resolved(st.graph, ctx.disk, ctx.rootPath, NonEmpty(names))
    ensures forall n :: n in names && n != "" && !Resolvable(st.graph, ctx.disk, Target(ctx.rootPath, n)) ==>
              Target(ctx.rootPath, n) in r.missing
    ensures forall x :: x in r.missing ==>
              x in st.missing || exists n :: n in names && n != "" && !Resolvable(st.graph, ctx.disk, Target(ctx.rootPath, n)) && x == Target(ctx.rootPath, n)
    ensures r.lastModule == st.lastModule && r.errors == st.errors
    ensures Valid(st.graph) ==> Valid(r.graph)
  {
    var r := TryAll(ctx, st, ctx.rootPath, NonEmpty(names), lineno);
    TryAllEdges(ctx, st, ctx.rootPath, NonEmpty(names), lineno);
    TryAllMissing(ctx, st, ctx.rootPath, NonEmpty(names), lineno);
    TryAllValid(ctx, st, ctx.rootPath, NonEmpty(names), lineno);
    r
  }

  /**
   The names of a pure-relative `from . import a, b`: each is resolved in the
   file's own directory. On a failure the source passes its local `module` to
   `_add_missing_module`: that is the submodule name last tried by a `from M import`
   (possibly in an earlier file), and when no such name was ever tried the
   lookup raises, which abandons the rest of the file.
   */
  function RelativeNames(ctx: Context, st: State, names: seq<string>, lineno: nat): (r: Step)
    requires ctx.path in st.graph.nodes
    ensures st.graph.nodes.Keys <= r.state.graph.nodes.Keys
    ensures r.state.lastModule == st.lastModule && r.state.errors == st.errors
    decreases |names|
  {
    if names == [] then Continue(st)
    else
      var added := AddNewNode(st.graph, ctx.disk, ctx.dir, names[0], lineno, ctx.path);
      if added.1 then RelativeNames(ctx, st.(graph := added.0), names[1..], lineno)
      else if st.lastModule.None? then Abandon(st)
      else RelativeNames(ctx, st.(missing := AddMissingModule(st.missing, ctx.dir, st.lastModule.value)), names[1..], lineno)
  }

  /** Does some name of the list fail to resolve below `base`? */
  ghost predicate SomeUnresolved(g: Graph, disk: set<string>, base: string, names: seq<string>) {
    exists n :: n in names && !Resolvable(g, disk, Target(base, n))
  }

  /**
   A pure-relative import is abandoned exactly when some name fails to resolve
   while no submodule name was ever tried; an abandoned one records nothing missing.
   */
  lemma {:induction false} RelativeNamesAbandon(ctx: Context, st: State, names: seq<string>, lineno: nat)
    requires ctx.path in st.graph.nodes
    ensures RelativeNames(ctx, st, names, lineno).Abandon? <==>
              st.lastModule == None && SomeUnresolved(st.graph, ctx.disk, ctx.dir, names)
    ensures RelativeNames(ctx, st, names, lineno).Abandon? ==> RelativeNames(ctx, st, names, lineno).state.missing == st.missing
    decreases |names|
  {
    if names != [] {
      var n0 := names[0];
      var added := AddNewNode(st.graph, ctx.disk, ctx.dir, n0, lineno, ctx.path);
      AddNewNodeResolvable(st.graph, ctx.disk, ctx.dir, n0, lineno, ctx.path);
      assert forall n :: n in names <==> n == n0 || n in names[1..];
      if added.1 {
        RelativeNamesAbandon(ctx, st.(graph := added.0), names[1..], lineno);
      } else if st.lastModule.Some? {
        RelativeNamesAbandon(ctx, st.(missing := AddMissingModule(st.missing, ctx.dir, st.lastModule.value)), names[1..], lineno);
      }
    }
  }

  /** A pure-relative import that completes adds one edge per resolving name, in order. */
  lemma {:induction false} RelativeNamesEdges(ctx: Context, st: State, names: seq<string>, lineno: nat)
    requires ctx.path in st.graph.nodes
    ensures var r := RelativeNames(ctx, st, names, lineno);
      r.Continue? ==> r.state.graph.nodes[ctx.path].imports
                      == st.graph.nodes[ctx.path].imports + Resolved(st.graph, ctx.disk, ctx.dir, names)
    decreases |names|
  {
    if names != [] {
      var n0 := names[0];
      var p := Target(ctx.dir, n0);
      var added := AddNewNode(st.graph, ctx.disk, ctx.dir, n0, lineno, ctx.path);
      AddNewNodeResolvable(st.graph, ctx.disk, ctx.dir, n0, lineno, ctx.path);
      var rest := Resolved(st.graph, ctx.disk, ctx.dir, names[1..]);
      if added.1 {
        var st' := st.(graph := added.0);
        RelativeNamesEdges(ctx, st', names[1..], lineno);
        ResolvedStable(st.graph, st'.graph, ctx.disk, ctx.dir, names[1..]);
        assert Resolved(st.graph, ctx.disk, ctx.dir, names) == [p] + rest;
        SeqAssoc(st.graph.nodes[ctx.path].imports, [p], rest);
      } else if st.lastModule.Some? {
        assert Resolved(st.graph, ctx.disk, ctx.dir, names) == rest;
        RelativeNamesEdges(ctx, st.(missing := AddMissingModule(st.missing, ctx.dir, st.lastModule.value)), names[1..], lineno);
      }
    }
  }

  /**
   A failure in a pure-relative import records the path of the stale submodule
   name below the file's directory, and nothing else.
   */
  lemma {:induction false} RelativeNamesMissing(ctx: Context, st: State, names: seq<string>, lineno: nat)
    requires ctx.path in st.graph.nodes
    ensures var r := RelativeNames(ctx, st, names, lineno);
      && (forall x :: x in r.state.missing ==> x in st.missing || (st.lastModule.Some? && x == Target(ctx.dir, st.lastModule.value)))
      && (st.lastModule.Some? && SomeUnresolved(st.graph, ctx.disk, ctx.dir, names) ==>
            Target(ctx.dir, st.lastModule.value) in r.state.missing)
      && (Distinct(st.missing) ==> Distinct(r.state.missing))
    decreases |names|
  {
    if names != [] {
      var n0 := names[0];
      var added := AddNewNode(st.graph, ctx.disk, ctx.dir, n0, lineno, ctx.path);
      AddNewNodeResolvable(st.graph, ctx.disk, ctx.dir, n0, lineno, ctx.path);
      assert forall n :: n in names <==> n == n0 || n in names[1..];
      if added.1 {
        RelativeNamesMissing(ctx, st.(graph := added.0), names[1..], lineno);
      } else if st.lastModule.Some? {
        var st' := st.(missing := AddMissingModule(st.missing, ctx.dir, st.lastModule.value));
        RelativeNamesMissing(ctx, st', names[1..], lineno);
        var r := RelativeNames(ctx, st', names[1..], lineno);
        assert r.state.missing[..|st'.missing|] == st'.missing by {
          RelativeNamesPrefix(ctx, st', names[1..], lineno);
        }
        assert Target(ctx.dir, st.lastModule.value) in st'.missing;
      }
    }
  }

  /** The missing list only grows at its end. */
  lemma {:induction false} RelativeNamesPrefix(ctx: Context, st: State, names: seq<string>, lineno: nat)
    requires ctx.path in st.graph.nodes
    ensures var r := RelativeNames(ctx, st, names, lineno);
      |st.missing| <= |r.state.missing| && r.state.missing[..|st.missing|] == st.missing
    decreases |names|
  {
    if names != [] {
      var added := AddNewNode(st.graph, ctx.disk, ctx.dir, names[0], lineno, ctx.path);
      if added.1 {
        RelativeNamesPrefix(ctx, st.(graph := added.0), names[1..], lineno);
      } else if st.lastModule.Some? {
        var st' := st.(missing := AddMissingModule(st.missing, ctx.dir, st.lastModule.value));
        RelativeNamesPrefix(ctx, st', names[1..], lineno);
        var r := RelativeNames(ctx, st', names[1..], lineno);
        assert r.state.missing[..|st.missing|] == r.state.missing[..|st'.missing|][..|st.missing|];
      }
    }
  }

  /** A pure-relative import keeps the graph's shape and what resolves. */
  lemma {:induction false} RelativeNamesValid(ctx: Context, st: State, names: seq<string>, lineno: nat)
    requires ctx.path in st.graph.nodes
    ensures var r := RelativeNames(ctx, st, names, lineno);
      && (forall q :: Resolvable(r.state.graph, ctx.disk, q) <==> Resolvable(st.graph, ctx.disk, q))
      && (Valid(st.graph) ==> Valid(r.state.graph))
      && (forall k :: k in st.graph.nodes ==> SameRecord(r.state.graph.nodes[k], st.graph.nodes[k]))
    decreases |names|
  {
    if names != [] {
      var added := AddNewNode(st.graph, ctx.disk, ctx.dir, names[0], lineno, ctx.path);
      AddNewNodeValid(st.graph, ctx.disk, ctx.dir, names[0], lineno, ctx.path);
      AddNewNodeResolvable(st.graph, ctx.disk, ctx.dir, names[0], lineno, ctx.path);
      if added.1 {
        RelativeNamesValid(ctx, st.(graph := added.0), names[1..], lineno);
      } else if st.lastModule.Some? {
        RelativeNamesValid(ctx, st.(missing := AddMissingModule(st.missing, ctx.dir, st.lastModule.value)), names[1..], lineno);
      }
    }
  }

  /**
   The base directory of a `from M import` at `lineno`: the file's directory when
   that source line contains `from .` anywhere, the project root otherwise
   (also when the line number is outside the file).
   */
  function RelativeBase(ctx: Context, lineno: nat): (base: string)
    ensures Marked(ctx.lines, lineno) ==> base == ctx.dir
    ensures !Marked(ctx.lines, lineno) ==> base == ctx.rootPath
  {
    if 1 <= lineno <= |ctx.lines| && Contains(ctx.lines[lineno - 1], RelativeMarker) then ctx.dir else ctx.rootPath
  }

  /** The text the source searches for in an import's line to treat it as relative. */
  const RelativeMarker: string := "from ."

  /** Line `lineno` exists and holds the relative marker at some position. */
  ghost predicate Marked(lines: seq<string>, lineno: nat) {
    1 <= lineno <= |lines| && Occurs(lines[lineno - 1], RelativeMarker)
  }

  /** The names at `lineno` of `funcImports`, or none. */
  function NamesAt(n: Node, lineno: nat): seq<string> {
    if lineno in n.funcImports then n.funcImports[lineno] else []
  }

  /**
   The names a `from M import` took from the module file `M`, appended one by
   one under the statement's line; no entry is made for an empty name list.
   */
  function RecordNames(n: Node, lineno: nat, names: seq<string>): (r: Node)
    ensures r == n.(funcImports := r.funcImports)
    ensures names == [] ==> r.funcImports == n.funcImports
    ensures names != [] ==> r.funcImports == n.funcImports[lineno := NamesAt(n, lineno) + names]
    decreases |names|
  {
    if names == [] then n
    else
      var n' := n.(funcImports := n.funcImports[lineno := NamesAt(n, lineno) + [names[0]]]);
      var r := RecordNames(n', lineno, names[1..]);
      assert NamesAt(n', lineno) + names[1..] == NamesAt(n, lineno) + names;
      assert names[1..] == [] ==> names == [names[0]];
      assert n.funcImports[lineno := NamesAt(n, lineno) + [names[0]]][lineno := NamesAt(n, lineno) + names]
          == n.funcImports[lineno := NamesAt(n, lineno) + names];
      r
  }

  /**
   `from M import a, b` with `M` present: resolve `M` below `RelativeBase`; when it
   resolves, one edge to it and the names recorded under the line; otherwise each
   `M.a`, `M.b` is tried as a submodule (leaving the last one as `lastModule`).
   */
  function FromModule(ctx: Context, st: State, m: string, names: seq<string>, lineno: nat): (r: State)
    requires ctx.path in st.graph.nodes
    ensures st.graph.nodes.Keys <= r.graph.nodes.Keys
    ensures r.errors == st.errors
  {
    var base := RelativeBase(ctx, lineno);
    var added := AddNewNode(st.graph, ctx.disk, base, m, lineno, ctx.path);
    if added.1 then
      var g := added.0;
      var n := g.nodes[ctx.path];
      st.(graph := UpdateRecord(g, ctx.path, RecordNames(n, lineno, names)))
    else
      var tried := TryAll(ctx, st, base, Dotted(m, names), lineno);
      tried.(lastModule := if names == [] then st.lastModule else Some(m + "." + names[|names| - 1]))
  }

  /**
   When `M` resolves, exactly one edge is added, to `M`'s file, the names are
   appended under the line, and nothing is recorded missing.
   */
  lemma FromModuleResolved(ctx: Context, st: State, m: string, names: seq<string>, lineno: nat)
    requires ctx.path in st.graph.nodes
    requires Resolvable(st.graph, ctx.disk, Target(RelativeBase(ctx, lineno), m))
    ensures var r := FromModule(ctx, st, m, names, lineno);
      && r.graph.nodes[ctx.path].imports == st.graph.nodes[ctx.path].imports + [Target(RelativeBase(ctx, lineno), m)]
      && r.graph.nodes[ctx.path].funcImports
         == (if names == [] then st.graph.nodes[ctx.path].funcImports
             else st.graph.nodes[ctx.path].funcImports[lineno := NamesAt(st.graph.nodes[ctx.path], lineno) + names])
      && r.missing == st.missing && r.lastModule == st.lastModule
  {
  }

  /**
   When `M` does not resolve, each `M.name` is tried in turn: one edge per
   resolving one, in order, and each failing one recorded as missing.
   */
  lemma FromModuleSubmodules(ctx: Context, st: State, m: string, names: seq<string>, lineno: nat)
    requires ctx.path in st.graph.nodes
    requires !Resolvable(st.graph, ctx.disk, Target(RelativeBase(ctx, lineno), m))
    ensures var base := RelativeBase(ctx, lineno);
            var r := FromModule(ctx, st, m, names, lineno);
      && r.graph.nodes[ctx.path].imports
         == st.graph.nodes[ctx.path].imports + Resolved(st.graph, ctx.disk, base, Dotted(m, names))
      && r.graph.nodes[ctx.path].funcImports == st.graph.nodes[ctx.path].funcImports
      && (forall i :: 0 <= i < |names| && !Resolvable(st.graph, ctx.disk, Target(base, m + "." + names[i])) ==>
            Target(base, m + "." + names[i]) in r.missing)
      && (forall x :: x in r.missing ==>
            x in st.missing || exists n :: n in names && !Resolvable(st.graph, ctx.disk, Target(base, m + "." + n)) && x == Target(base, m + "." + n))
      && r.lastModule == (if names == [] then st.lastModule else Some(m + "." + names[|names| - 1]))
  {
    var base := RelativeBase(ctx, lineno);
    var dotted := Dotted(m, names);
    TryAllEdges(ctx, st, base, dotted, lineno);
    TryAllMissing(ctx, st, base, dotted, lineno);
    TryAllRecords(ctx, st, base, dotted, lineno);
    forall i | 0 <= i < |names| ensures dotted[i] in dotted {
    }
    forall x | x in dotted ensures exists n :: n in names && x == m + "." + n {
      var i :| 0 <= i < |dotted| && dotted[i] == x;
      assert names[i] in names;
    }
  }

  /** A `from M import` keeps the graph's shape, what resolves, and a duplicate-free missing list. */
  lemma FromModuleValid(ctx: Context, st: State, m: string, names: seq<string>, lineno: nat)
    requires ctx.path in st.graph.nodes
    ensures var r := FromModule(ctx, st, m, names, lineno);
      && (forall q :: Resolvable(r.graph, ctx.disk, q) <==> Resolvable(st.graph, ctx.disk, q))
      && (Valid(st.graph) ==> Valid(r.graph))
      && (Distinct(st.missing) ==> Distinct(r.missing))
  {
    var base := RelativeBase(ctx, lineno);
    var added := AddNewNode(st.graph, ctx.disk, base, m, lineno, ctx.path);
    AddNewNodeValid(st.graph, ctx.disk, base, m, lineno, ctx.path);
    AddNewNodeResolvable(st.graph, ctx.disk, base, m, lineno, ctx.path);
    if added.1 {
      var g := added.0;
      UpdateRecordValid(g, ctx.path, RecordNames(g.nodes[ctx.path], lineno, names));
    } else {
      var dotted := Dotted(m, names);
      TryAllMissing(ctx, st, base, dotted, lineno);
      TryAllValid(ctx, st, base, dotted, lineno);
      TryAllResolvable(ctx, st, base, dotted, lineno);
    }
  }

  /** A class or function definition: `func_defs[name] = lineno` on the file's node. */
  function Define(ctx: Context, st: State, name: string, lineno: nat): (r: State)
    requires ctx.path in st.graph.nodes
    ensures r.graph.nodes.Keys == st.graph.nodes.Keys
    ensures name in r.graph.nodes[ctx.path].funcDefs && r.graph.nodes[ctx.path].funcDefs[name] == lineno
    ensures r.graph.nodes[ctx.path].funcDefs.Keys == st.graph.nodes[ctx.path].funcDefs.Keys + {name}
    ensures forall d :: d in st.graph.nodes[ctx.path].funcDefs && d != name ==>
              r.graph.nodes[ctx.path].funcDefs[d] == st.graph.nodes[ctx.path].funcDefs[d]
    ensures r.graph.nodes[ctx.path].imports == st.graph.nodes[ctx.path].imports
    ensures r.graph.nodes[ctx.path] == st.graph.nodes[ctx.path].(funcDefs := r.graph.nodes[ctx.path].funcDefs)
    ensures r.graph.order == st.graph.order
    ensures forall k :: k in st.graph.nodes && k != ctx.path ==> r.graph.nodes[k] == st.graph.nodes[k]
    ensures r.missing == st.missing && r.lastModule == st.lastModule && r.errors == st.errors
    ensures Valid(st.graph) ==> Valid(r.graph)
  {
    var n := st.graph.nodes[ctx.path];
    var n' := n.(funcDefs := n.funcDefs[name := lineno]);
    UpdateRecordValid(st.graph, ctx.path, n');
    st.(graph := UpdateRecord(st.graph, ctx.path, n'))
  }

  /** Is this a pure-relative `from . import ...`, the one statement that can abandon a file? */
  predicate PureRelative(s: Stmt) {
    s.ImportFrom? && s.moduleName.None?
  }

  /** One statement of the walk, dispatched on its kind. */
  function ProcessStmt(ctx: Context, st: State, s: Stmt): (r: Step)
    requires ctx.path in st.graph.nodes
    ensures st.graph.nodes.Keys <= r.state.graph.nodes.Keys
    ensures r.state.errors == st.errors
    ensures r.Abandon? ==> PureRelative(s)
  {
    match s
    case Import(names, lineno) => Continue(ImportNames(ctx, st, names, lineno))
    case ImportFrom(m, names, lineno) =>
      if m.None? then RelativeNames(ctx, st, names, lineno)
      else Continue(FromModule(ctx, st, m.value, names, lineno))
    case Definition(name, lineno) => Continue(Define(ctx, st, name, lineno))
  }

  /** Every statement keeps the graph's shape and a duplicate-free missing list. */
  lemma ProcessStmtValid(ctx: Context, st: State, s: Stmt)
    requires ctx.path in st.graph.nodes
    ensures Valid(st.graph) ==> Valid(ProcessStmt(ctx, st, s).state.graph)
    ensures Distinct(st.missing) ==> Distinct(ProcessStmt(ctx, st, s).state.missing)
  {
    match s
    case Import(names, lineno) =>
      TryAllValid(ctx, st, ctx.rootPath, NonEmpty(names), lineno);
      TryAllMissing(ctx, st, ctx.rootPath, NonEmpty(names), lineno);
    case ImportFrom(m, names, lineno) =>
      if m.None? {
        RelativeNamesValid(ctx, st, names, lineno);
        RelativeNamesMissing(ctx, st, names, lineno);
      } else {
        FromModuleValid(ctx, st, m.value, names, lineno);
      }
    case Definition(name, lineno) =>
  }

  /** The statements of one file in walk order; an abandoning statement ends the file. */
  function ProcessBody(ctx: Context, st: State, body: seq<Stmt>): (r: Step)
    requires ctx.path in st.graph.nodes
    ensures st.graph.nodes.Keys <= r.state.graph.nodes.Keys
    ensures r.state.errors == st.errors
    decreases |body|
  {
    if body == [] then Continue(st)
    else
      match ProcessStmt(ctx, st, body[0])
      case Abandon(s) => Abandon(s)
      case Continue(s) => ProcessBody(ctx, s, body[1..])
  }

  /** A file is abandoned only at a pure-relative import, and only by one. */
  lemma {:induction false} ProcessBodyAbandon(ctx: Context, st: State, body: seq<Stmt>)
    requires ctx.path in st.graph.nodes
    ensures ProcessBody(ctx, st, body).Abandon? ==> exists i :: 0 <= i < |body| && PureRelative(body[i])
    decreases |body|
  {
    if body != [] {
      var step := ProcessStmt(ctx, st, body[0]);
      if step.Continue? {
        ProcessBodyAbandon(ctx, step.state, body[1..]);
        if ProcessBody(ctx, st, body).Abandon? {
          var i :| 0 <= i < |body[1..]| && PureRelative(body[1..][i]);
          assert PureRelative(body[i + 1]);
        }
      } else {
        assert PureRelative(body[0]);
      }
    }
  }

  /** The statements of a file keep the graph's shape and a duplicate-free missing list. */
  lemma {:induction false} ProcessBodyValid(ctx: Context, st: State, body: seq<Stmt>)
    requires ctx.path in st.graph.nodes
    ensures Valid(st.graph) ==> Valid(ProcessBody(ctx, st, body).state.graph)
    ensures Distinct(st.missing) ==> Distinct(ProcessBody(ctx, st, body).state.missing)
    decreases |body|
  {
    if body != [] {
      var step := ProcessStmt(ctx, st, body[0]);
      ProcessStmtValid(ctx, st, body[0]);
      if step.Continue? {
        ProcessBodyValid(ctx, step.state, body[1..]);
      }
    }
  }

  /** Every node of `g` is still in `h`, under the same name. */
  ghost predicate NamesKept(g: Graph, h: Graph) {
    forall k :: k in g.nodes ==> k in h.nodes && h.nodes[k].name == g.nodes[k].name
  }

  /** No statement renames a node: a node keeps the name of whoever created it. */
  lemma ProcessStmtNames(ctx: Context, st: State, s: Stmt)
    requires ctx.path in st.graph.nodes
    ensures NamesKept(st.graph, ProcessStmt(ctx, st, s).state.graph)
  {
    match s
    case Import(names, lineno) =>
      TryAllNames(ctx, st, ctx.rootPath, NonEmpty(names), lineno);
    case ImportFrom(m, names, lineno) =>
      if m.None? {
        RelativeNamesValid(ctx, st, names, lineno);
      } else {
        FromModuleNames(ctx, st, m.value, names, lineno);
      }
    case Definition(name, lineno) =>
      DefineNames(ctx, st, name, lineno);
  }

  lemma TryAllNames(ctx: Context, st: State, base: string, names: seq<string>, lineno: nat)
    requires ctx.path in st.graph.nodes
    ensures NamesKept(st.graph, TryAll(ctx, st, base, names, lineno).graph)
  {
    TryAllRecords(ctx, st, base, names, lineno);
  }

  lemma FromModuleNames(ctx: Context, st: State, m: string, names: seq<string>, lineno: nat)
    requires ctx.path in st.graph.nodes
    ensures NamesKept(st.graph, FromModule(ctx, st, m, names, lineno).graph)
  {
    var base := RelativeBase(ctx, lineno);
    if !AddNewNode(st.graph, ctx.disk, base, m, lineno, ctx.path).1 {
      TryAllNames(ctx, st, base, Dotted(m, names), lineno);
    }
  }

  lemma DefineNames(ctx: Context, st: State, name: string, lineno: nat)
    requires ctx.path in st.graph.nodes
    ensures NamesKept(st.graph, Define(ctx, st, name, lineno).graph)
  {
  }

  lemma {:induction false} ProcessBodyNames(ctx: Context, st: State, body: seq<Stmt>)
    requires ctx.path in st.graph.nodes
    ensures NamesKept(st.graph, ProcessBody(ctx, st, body).state.graph)
    decreases |body|
  {
    if body != [] {
      var step := ProcessStmt(ctx, st, body[0]);
      ProcessStmtNames(ctx, st, body[0]);
      if step.Continue? {
        ProcessBodyNames(ctx, step.state, body[1..]);
      }
    }
  }

  /** The file's path as `os.path.join(root, file_name)`. */
  function FilePath(f: SourceFile): string {
    PathJoin(f.dir, f.fileName)
  }

  /** `file_name[:-3]`: the name a file's own node gets when the file creates it. */
  function Stem(fileName: string): (r: string)
    ensures EndsWith(fileName, ".py") ==> r + ".py" == fileName
  {
    if |fileName| >= 3 then fileName[..|fileName| - 3] else ""
  }

  /**
   One file of the walk. A file that cannot be read or parsed sets `errors` and
   adds nothing; otherwise its node is created (named after the file's stem) if
   no import created it earlier, and its statements are processed; an abandoned
   file sets `errors`, keeping what its earlier statements added.
   */
  function ProcessFile(rootPath: string, disk: set<string>, st: State, f: SourceFile): (r: State)
    ensures st.graph.nodes.Keys <= r.graph.nodes.Keys
    ensures f.content.None? ==> r == st.(errors := true)
    ensures f.content.Some? ==> r.graph.nodes.Keys >= st.graph.nodes.Keys + {FilePath(f)}
    ensures f.content.Some? && FilePath(f) !in st.graph.nodes ==> r.graph.nodes[FilePath(f)].name == Stem(f.fileName)
    ensures st.errors ==> r.errors
  {
    match f.content
    case None => st.(errors := true)
    case Some(parsed) =>
      var path := FilePath(f);
      var g := WithNode(st.graph, path, Stem(f.fileName));
      var ctx := Context(rootPath, f.dir, path, parsed.lines, disk);
      var step := ProcessBody(ctx, st.(graph := g), parsed.body);
      ProcessBodyNames(ctx, st.(graph := g), parsed.body);
      if step.Abandon? then step.state.(errors := true) else step.state
  }

  /** A file keeps the graph's shape and a duplicate-free missing list. */
  lemma ProcessFileValid(rootPath: string, disk: set<string>, st: State, f: SourceFile)
    ensures Valid(st.graph) ==> Valid(ProcessFile(rootPath, disk, st, f).graph)
    ensures Distinct(st.missing) ==> Distinct(ProcessFile(rootPath, disk, st, f).missing)
  {
    if f.content.Some? {
      var path := FilePath(f);
      var g := WithNode(st.graph, path, Stem(f.fileName));
      WithNodeValid(st.graph, path, Stem(f.fileName));
      ProcessBodyValid(Context(rootPath, f.dir, path, f.content.value.lines, disk), st.(graph := g), f.content.value.body);
    }
  }

  /** A parsed file with no pure-relative import is never abandoned. */
  lemma ProcessFileClean(rootPath: string, disk: set<string>, st: State, f: SourceFile)
    requires f.content.Some?
    requires forall j :: 0 <= j < |f.content.value.body| ==> !PureRelative(f.content.value.body[j])
    ensures ProcessFile(rootPath, disk, st, f).errors == st.errors
  {
    var path := FilePath(f);
    var g := WithNode(st.graph, path, Stem(f.fileName));
    ProcessBodyAbandon(Context(rootPath, f.dir, path, f.content.value.lines, disk), st.(graph := g), f.content.value.body);
  }

  /** The names always ignored by the walk. */
  const DefaultIgnore: set<string> := {".hg", ".svn", ".git", ".tox", "__pycache__", "env", "venv"}

  /** The ignore set: the defaults and the base names the caller adds. */
  function IgnoreSet(extra: seq<string>): set<string>
  {
    DefaultIgnore + set x | x in extra
  }

  /** A file the walk reads: a `.py` extension and a name outside the ignore set. */
  predicate IsSourceFile(ignore: set<string>, f: SourceFile) {
    Extension(f.fileName) == ".py" && f.fileName !in ignore
  }

  /** The files of the walk, in order; the others are skipped. */
  function ProcessFiles(rootPath: string, disk: set<string>, ignore: set<string>, st: State, files: seq<SourceFile>): (r: State)
    ensures st.graph.nodes.Keys <= r.graph.nodes.Keys
    ensures st.errors ==> r.errors
    decreases |files|
  {
    if files == [] then st
    else
      var st' := if IsSourceFile(ignore, files[0]) then ProcessFile(rootPath, disk, st, files[0]) else st;
      ProcessFiles(rootPath, disk, ignore, st', files[1..])
  }

  /** The walk keeps the graph's shape and a duplicate-free missing list. */
  lemma {:induction false} ProcessFilesValid(rootPath: string, disk: set<string>, ignore: set<string>, st: State, files: seq<SourceFile>)
    ensures Valid(st.graph) ==> Valid(ProcessFiles(rootPath, disk, ignore, st, files).graph)
    ensures Distinct(st.missing) ==> Distinct(ProcessFiles(rootPath, disk, ignore, st, files).missing)
    decreases |files|
  {
    if files != [] {
      ProcessFileValid(rootPath, disk, st, files[0]);
      var st' := if IsSourceFile(ignore, files[0]) then ProcessFile(rootPath, disk, st, files[0]) else st;
      ProcessFilesValid(rootPath, disk, ignore, st', files[1..]);
    }
  }

  /** Every source file that parses has a node under its path. */
  lemma {:induction false} ProcessFilesNodes(rootPath: string, disk: set<string>, ignore: set<string>, st: State, files: seq<SourceFile>)
    ensures forall i :: 0 <= i < |files| && IsSourceFile(ignore, files[i]) && files[i].content.Some? ==>
              FilePath(files[i]) in ProcessFiles(rootPath, disk, ignore, st, files).graph.nodes
    decreases |files|
  {
    if files != [] {
      var st' := if IsSourceFile(ignore, files[0]) then ProcessFile(rootPath, disk, st, files[0]) else st;
      ProcessFilesNodes(rootPath, disk, ignore, st', files[1..]);
      forall i | 1 <= i < |files| ensures files[i] == files[1..][i - 1] {
      }
    }
  }

  /** Any source file that fails to parse sets the error flag. */
  lemma {:induction false} ProcessFilesFailure(rootPath: string, disk: set<string>, ignore: set<string>, st: State, files: seq<SourceFile>)
    ensures (exists i :: 0 <= i < |files| && IsSourceFile(ignore, files[i]) && files[i].content.None?) ==>
              ProcessFiles(rootPath, disk, ignore, st, files).errors
    decreases |files|
  {
    if files != [] {
      var st' := if IsSourceFile(ignore, files[0]) then ProcessFile(rootPath, disk, st, files[0]) else st;
      ProcessFilesFailure(rootPath, disk, ignore, st', files[1..]);
      forall i | 1 <= i < |files| ensures files[i] == files[1..][i - 1] {
      }
    }
  }

  /** When every source file parses and none has a pure-relative import, the error flag stays clear. */
  lemma {:induction false} ProcessFilesClean(rootPath: string, disk: set<string>, ignore: set<string>, st: State, files: seq<SourceFile>)
    requires forall i :: 0 <= i < |files| && IsSourceFile(ignore, files[i]) ==> Clean(files[i])
    ensures ProcessFiles(rootPath, disk, ignore, st, files).errors == st.errors
    decreases |files|
  {
    if files != [] {
      var st' := if IsSourceFile(ignore, files[0]) then ProcessFile(rootPath, disk, st, files[0]) else st;
      if IsSourceFile(ignore, files[0]) {
        ProcessFileClean(rootPath, disk, st, files[0]);
      }
      assert forall i :: 0 <= i < |files[1..]| ==> files[1..][i] == files[i + 1];
      ProcessFilesClean(rootPath, disk, ignore, st', files[1..]);
    }
  }

  /** A file that parses and holds no pure-relative import. */
  predicate Clean(f: SourceFile) {
    f.content.Some? && forall j :: 0 <= j < |f.content.value.body| ==> !PureRelative(f.content.value.body[j])
  }

  /** The records of the given keys, in order. */
  function NodesOf(g: Graph, keys: seq<string>): (r: seq<Node>)
    requires forall i :: 0 <= i < |keys| ==> keys[i] in g.nodes
    ensures |r| == |keys| && forall i :: 0 <= i < |keys| ==> r[i] == g.nodes[keys[i]]
  {
    if keys == [] then [] else [g.nodes[keys[0]]] + NodesOf(g, keys[1..])
  }

  /** `Node.is_imported_from_any`: does one of `importers` import `n` at some line? */
  function ImportedFromAny(n: Node, importers: seq<Node>): (b: bool)
    ensures b <==> exists i :: 0 <= i < |importers| && Lines(n, importers[i].fullPath) != []
  {
    if importers == [] then false
    else if Lines(n, importers[0].fullPath) != [] then true
    else
      var b := ImportedFromAny(n, importers[1..]);
      assert forall i :: 1 <= i < |importers| ==> importers[i] == importers[1..][i - 1];
      b
  }

  /** The keys of root nodes, in the order given. */
  function RootsOf(g: Graph, keys: seq<string>): (r: seq<string>)
    ensures forall k :: k in r <==> k in keys && k in g.nodes && IsRoot(g.nodes[k])
    ensures Distinct(keys) ==> Distinct(r)
    ensures Subsequence(r, keys)
  {
    if keys == [] then []
    else
      var rest := RootsOf(g, keys[1..]);
      assert keys == [keys[0]] + keys[1..];
      if keys[0] in g.nodes && IsRoot(g.nodes[keys[0]]) then
        assert Distinct(keys) ==> keys[0] !in keys[1..];
        SubsequenceCons(keys[0], rest, keys[1..]);
        [keys[0]] + rest
      else
        SubsequenceSkip(keys[0], rest, keys[1..]);
        rest
  }

  /** The keys of non-root nodes that no node of `roots` imports, in the order given. */
  function ExtraRootsOf(g: Graph, keys: seq<string>, roots: seq<Node>): (r: seq<string>)
    ensures forall k :: k in r <==> k in keys && k in g.nodes && !IsRoot(g.nodes[k]) && !ImportedFromAny(g.nodes[k], roots)
    ensures Distinct(keys) ==> Distinct(r)
    ensures Subsequence(r, keys)
  {
    if keys == [] then []
    else
      var rest := ExtraRootsOf(g, keys[1..], roots);
      var k := keys[0];
      assert keys == [k] + keys[1..];
      if k in g.nodes && !IsRoot(g.nodes[k]) && !ImportedFromAny(g.nodes[k], roots) then
        assert Distinct(keys) ==> k !in keys[1..];
        SubsequenceCons(k, rest, keys[1..]);
        [k] + rest
      else
        SubsequenceSkip(k, rest, keys[1..]);
        rest
  }

  /**
   The entry list `read_project` returns: the roots, then the non-roots that no
   root imports directly. In a well-formed graph it holds no key twice and only
   keys, lists exactly the roots first, each part in node insertion order, and
   reaches every node by at most one import.
   */
  function Partition(g: Graph): (entry: seq<string>)
    ensures |RootsOf(g, g.order)| <= |entry|
    ensures Valid(g) ==>
      && Distinct(entry)
      && Subsequence(entry[..|RootsOf(g, g.order)|], g.order)
      && Subsequence(entry[|RootsOf(g, g.order)|..], g.order)
      && (forall k :: k in entry ==> k in g.nodes)
      && (forall i :: 0 <= i < |RootsOf(g, g.order)| ==> IsRoot(g.nodes[entry[i]]))
      && (forall i :: |RootsOf(g, g.order)| <= i < |entry| ==> !IsRoot(g.nodes[entry[i]]))
      && (forall k :: k in g.nodes && IsRoot(g.nodes[k]) ==> k in entry)
      && Covers(g, entry)
  {
    var roots := RootsOf(g, g.order);
    var entry := roots + ExtraRootsOf(g, g.order, NodesOf(g, roots));
    PartitionSpec(g, roots, entry);
    entry
  }

  /** The roots followed by the extra roots have the properties of the entry list. */
  lemma PartitionSpec(g: Graph, roots: seq<string>, entry: seq<string>)
    requires roots == RootsOf(g, g.order) && entry == roots + ExtraRootsOf(g, g.order, NodesOf(g, roots))
    ensures Valid(g) ==>
      && Distinct(entry)
      && Subsequence(entry[..|roots|], g.order)
      && Subsequence(entry[|roots|..], g.order)
      && (forall k :: k in entry ==> k in g.nodes)
      && (forall i :: 0 <= i < |roots| ==> IsRoot(g.nodes[entry[i]]))
      && (forall i :: |roots| <= i < |entry| ==> !IsRoot(g.nodes[entry[i]]))
      && (forall k :: k in g.nodes && IsRoot(g.nodes[k]) ==> k in entry)
      && Covers(g, entry)
  {
    if Valid(g) {
      PartitionValid(g, roots, entry);
    }
  }

  lemma PartitionValid(g: Graph, roots: seq<string>, entry: seq<string>)
    requires Valid(g)
    requires roots == RootsOf(g, g.order) && entry == roots + ExtraRootsOf(g, g.order, NodesOf(g, roots))
    ensures Distinct(entry)
    ensures Subsequence(entry[..|roots|], g.order) && Subsequence(entry[|roots|..], g.order)
    ensures forall k :: k in entry ==> k in g.nodes
    ensures forall i :: 0 <= i < |roots| ==> IsRoot(g.nodes[entry[i]])
    ensures forall i :: |roots| <= i < |entry| ==> !IsRoot(g.nodes[entry[i]])
    ensures forall k :: k in g.nodes && IsRoot(g.nodes[k]) ==> k in entry
    ensures Covers(g, entry)
  {
    var extra := ExtraRootsOf(g, g.order, NodesOf(g, roots));
    assert entry[..|roots|] == roots && entry[|roots|..] == extra;
    assert Distinct(entry) by {
      forall i, j | 0 <= i < j < |entry| ensures entry[i] != entry[j] {
        if j < |roots| {
        } else if i >= |roots| {
          assert extra[i - |roots|] != extra[j - |roots|];
        } else {
          assert entry[i] in roots && entry[j] in extra;
        }
      }
    }
    forall i | 0 <= i < |entry| ensures entry[i] in g.nodes && (i < |roots| <==> IsRoot(g.nodes[entry[i]])) {
      if i < |roots| {
        assert entry[i] in roots;
      } else {
        assert entry[i] in extra;
      }
    }
    forall k | k in g.nodes ensures k in entry || exists e :: e in entry && e in g.nodes && k in g.nodes[e].imports {
      if k !in entry {
        PartitionCovers(g, roots, k);
      }
    }
  }

  /** A non-root node left out of the extra roots is imported by some root. */
  lemma PartitionCovers(g: Graph, roots: seq<string>, k: string)
    requires Valid(g) && roots == RootsOf(g, g.order)
    requires k in g.nodes && k !in roots + ExtraRootsOf(g, g.order, NodesOf(g, roots))
    ensures exists e :: e in roots && e in g.nodes && k in g.nodes[e].imports
  {
    var importers := NodesOf(g, roots);
    assert k in g.order;
    assert ImportedFromAny(g.nodes[k], importers);
    var i :| 0 <= i < |importers| && Lines(g.nodes[k], importers[i].fullPath) != [];
    var e := roots[i];
    assert importers[i].fullPath == e;
    assert multiset(g.nodes[e].imports)[k] > 0;
  }

  /** What `read_project` computes: the graph, its entry list, and the diagnostics it reports. */
  datatype Project = Project(graph: Graph, entry: seq<string>, missing: seq<string>, errors: bool)

  /**
   `read_project` over the walked files (`files`, in walk order), with the
   caller's ignore names and the set of existing files.
   */
  function ReadProject(rootPath: string, ignore: seq<string>, files: seq<SourceFile>, disk: set<string>): (p: Project)
    ensures forall i :: 0 <= i < |files| && IsSourceFile(IgnoreSet(ignore), files[i]) && files[i].content.Some? ==>
              FilePath(files[i]) in p.graph.nodes
  {
    var st := ProcessFiles(rootPath, disk, IgnoreSet(ignore), State(EmptyGraph(), [], None, false), files);
    ProcessFilesNodes(rootPath, disk, IgnoreSet(ignore), State(EmptyGraph(), [], None, false), files);
    Project(st.graph, Partition(st.graph), st.missing, st.errors)
  }

  /**
   The project read is a well-formed graph, its missing list has no duplicate,
   and its entry list is duplicate-free and reaches every node within one import.
   */
  lemma ReadProjectValid(rootPath: string, ignore: seq<string>, files: seq<SourceFile>, disk: set<string>)
    ensures var p := ReadProject(rootPath, ignore, files, disk);
      && Valid(p.graph) && Distinct(p.missing)
      && Distinct(p.entry) && (forall k :: k in p.entry ==> k in p.graph.nodes) && Covers(p.graph, p.entry)
      && (forall k :: k in p.graph.nodes && IsRoot(p.graph.nodes[k]) ==> k in p.entry)
  {
    var st0 := State(EmptyGraph(), [], None, false);
    ProcessFilesValid(rootPath, disk, IgnoreSet(ignore), st0, files);
  }

  /** The error flag, as the walk sets it. */
  lemma ReadProjectErrors(rootPath: string, ignore: seq<string>, files: seq<SourceFile>, disk: set<string>)
    ensures (exists i :: 0 <= i < |files| && IsSourceFile(IgnoreSet(ignore), files[i]) && files[i].content.None?) ==>
              ReadProject(rootPath, ignore, files, disk).errors
    ensures (forall i :: 0 <= i < |files| && IsSourceFile(IgnoreSet(ignore), files[i]) ==> Clean(files[i])) ==>
              !ReadProject(rootPath, ignore, files, disk).errors
  {
    var st0 := State(EmptyGraph(), [], None, false);
    ProcessFilesFailure(rootPath, disk, IgnoreSet(ignore), st0, files);
    if forall i :: 0 <= i < |files| && IsSourceFile(IgnoreSet(ignore), files[i]) ==> Clean(files[i]) {
      ProcessFilesClean(rootPath, disk, IgnoreSet(ignore), st0, files);
    }
  }
}

=== FILE: report.dfy ===
/**
 Turning the registered cycles into the report of `detect_cycles`: the
 order-preserving removal of cycles over the same nodes (`CyclePath.__eq__`),
 the one-line description of a cycle (`CyclePath.description`, without
 colours), and the theorems tying the report to the cycles of the graph.
 */
module Report {
  import opened Strings
  import opened ImportGraph
  import opened Search
  import opened Reader

  /** `CyclePath.__eq__`: two cycles are equal when they hold the same nodes, in any order. */
  predicate SameNodes(a: seq<string>, b: seq<string>) {
    (set x | x in a) == (set x | x in b)
  }

  /** `cycle_path in cycles_list`: does `kept` hold a cycle over the same nodes as `c`? */
  function AnySame(kept: seq<seq<string>>, c: seq<string>): (b: bool)
    ensures b <==> exists i :: 0 <= i < |kept| && SameNodes(kept[i], c)
  {
    if kept == [] then false
    else if SameNodes(kept[0], c) then true
    else
      var b := AnySame(kept[1..], c);
      assert forall i :: 1 <= i < |kept| ==> kept[i] == kept[1..][i - 1];
      b
  }

  /** The dedup loop of `detect_cycles`, from the cycles `kept` so far. */
  function DedupInto(kept: seq<seq<string>>, cs: seq<seq<string>>): (r: seq<seq<string>>)
    ensures |kept| <= |r| && r[..|kept|] == kept
    decreases |cs|
  {
    if cs == [] then kept
    else
      var kept' := if AnySame(kept, cs[0]) then kept else kept + [cs[0]];
      var r := DedupInto(kept', cs[1..]);
      assert r[..|kept|] == r[..|kept'|][..|kept|];
      r
  }

  /** No two cycles of the list hold the same nodes. */
  predicate Unrelated(cs: seq<seq<string>>) {
    forall i, j :: 0 <= i < j < |cs| ==> !SameNodes(cs[i], cs[j])
  }

  /** Dedup adds only input cycles. */
  lemma {:induction false} DedupIntoDrawn(kept: seq<seq<string>>, cs: seq<seq<string>>)
    ensures forall y :: y in DedupInto(kept, cs) ==> y in kept || y in cs
    decreases |cs|
  {
    if cs != [] {
      var kept' := if AnySame(kept, cs[0]) then kept else kept + [cs[0]];
      DedupIntoDrawn(kept', cs[1..]);
      var r := DedupInto(kept', cs[1..]);
      forall y | y in r ensures y in kept || y in cs {
        if y in kept' && y !in kept {
          assert y == cs[0];
        }
        if y in cs[1..] {
          assert y in cs;
        }
      }
    }
  }

  /** Dedup never adds a cycle over the same nodes as one already kept. */
  lemma {:induction false} DedupIntoUnrelated(kept: seq<seq<string>>, cs: seq<seq<string>>)
    requires Unrelated(kept)
    ensures Unrelated(DedupInto(kept, cs))
    decreases |cs|
  {
    if cs != [] {
      var kept' := if AnySame(kept, cs[0]) then kept else kept + [cs[0]];
      if !AnySame(kept, cs[0]) {
        forall i, j | 0 <= i < j < |kept'| ensures !SameNodes(kept'[i], kept'[j]) {
          if j == |kept| {
            assert kept'[i] == kept[i];
          }
        }
      }
      DedupIntoUnrelated(kept', cs[1..]);
    }
  }

  /** Some cycle of `r` holds the same nodes as `x`. */
  ghost predicate Represented(r: seq<seq<string>>, x: seq<string>) {
    exists j :: 0 <= j < |r| && SameNodes(r[j], x)
  }

  lemma RepresentedAt(r: seq<seq<string>>, j: int, x: seq<string>)
    requires 0 <= j < |r| && SameNodes(r[j], x)
    ensures Represented(r, x)
  {
  }

  /** Every kept or input cycle has a cycle over the same nodes in the result. */
  lemma {:induction false} DedupIntoCovers(kept: seq<seq<string>>, cs: seq<seq<string>>)
    ensures forall x :: x in kept || x in cs ==> Represented(DedupInto(kept, cs), x)
    decreases |cs|
  {
    var r := DedupInto(kept, cs);
    if cs == [] {
      assert r == kept;
      forall x | x in kept ensures Represented(r, x) {
        var j :| 0 <= j < |kept| && kept[j] == x;
        RepresentedAt(r, j, x);
      }
    } else {
      var kept' := if AnySame(kept, cs[0]) then kept else kept + [cs[0]];
      DedupIntoCovers(kept', cs[1..]);
      assert r == DedupInto(kept', cs[1..]);
      forall x | x in kept || x in cs ensures Represented(r, x) {
        if x in kept || x == cs[0] {
          var i: int;
          if x in kept {
            i :| 0 <= i < |kept| && kept[i] == x;
            assert kept'[i] == x;
          } else if AnySame(kept, cs[0]) {
            i :| 0 <= i < |kept| && SameNodes(kept[i], cs[0]);
          } else {
            i := |kept|;
          }
          assert kept'[i] in kept';
          assert Represented(r, kept'[i]);
          var j :| 0 <= j < |r| && SameNodes(r[j], kept'[i]);
          RepresentedAt(r, j, x);
        } else {
          assert x in cs[1..];
        }
      }
    }
  }

  /**
   The first cycle of each same-node class is the one kept: a cycle no earlier
   cycle (nor any kept one) shares its nodes with ends up in the result.
   */
  lemma {:induction false} DedupIntoFirst(kept: seq<seq<string>>, cs: seq<seq<string>>, i: nat)
    requires i < |cs|
    requires forall y :: y in kept ==> !SameNodes(y, cs[i])
    requires forall k :: 0 <= k < i ==> !SameNodes(cs[k], cs[i])
    ensures cs[i] in DedupInto(kept, cs)
    decreases |cs|
  {
    var kept' := if AnySame(kept, cs[0]) then kept else kept + [cs[0]];
    if i == 0 {
      var r := DedupInto(kept', cs[1..]);
      assert kept'[|kept|] == cs[0];
      assert r[|kept|] == cs[0];
    } else {
      forall y | y in kept' ensures !SameNodes(y, cs[1..][i - 1]) {
        if y !in kept {
          assert y == cs[0];
        }
      }
      DedupIntoFirst(kept', cs[1..], i - 1);
    }
  }

  /** The cycles the dedup adds keep their input order. */
  lemma {:induction false} DedupIntoOrder(kept: seq<seq<string>>, cs: seq<seq<string>>)
    ensures Subsequence(DedupInto(kept, cs)[|kept|..], cs)
    decreases |cs|
  {
    var r := DedupInto(kept, cs);
    if cs == [] {
      assert r[|kept|..] == [];
    } else {
      var kept' := if AnySame(kept, cs[0]) then kept else kept + [cs[0]];
      DedupIntoOrder(kept', cs[1..]);
      assert r == DedupInto(kept', cs[1..]);
      assert cs == [cs[0]] + cs[1..];
      if AnySame(kept, cs[0]) {
        SubsequenceSkip(cs[0], r[|kept|..], cs[1..]);
      } else {
        assert r[|kept|..] == [cs[0]] + r[|kept'|..] by {
          assert r[..|kept'|] == kept';
        }
        SubsequenceCons(cs[0], r[|kept'|..], cs[1..]);
      }
    }
  }

  /**
   The dedup of `detect_cycles`: each cycle is kept unless one over the same
   nodes came before. The result is the input with cycles dropped, in input
   order, no two over the same nodes; every input cycle is represented, the
   first of each node set is the one kept, and only an empty input gives an
   empty result.
   */
  function Dedup(cs: seq<seq<string>>): (r: seq<seq<string>>)
    ensures Subsequence(r, cs)
    ensures forall y :: y in r ==> y in cs
    ensures Unrelated(r)
    ensures forall x :: x in cs ==> Represented(r, x)
    ensures forall i :: 0 <= i < |cs| && (forall k :: 0 <= k < i ==> !SameNodes(cs[k], cs[i])) ==> cs[i] in r
    ensures r == [] <==> cs == []
  {
    var r := DedupInto([], cs);
    DedupIntoOrder([], cs);
    assert r[0..] == r;
    DedupIntoDrawn([], cs);
    DedupIntoUnrelated([], cs);
    DedupIntoCovers([], cs);
    assert forall i :: 0 <= i < |cs| && (forall k :: 0 <= k < i ==> !SameNodes(cs[k], cs[i])) ==> cs[i] in r by {
      forall i | 0 <= i < |cs| && (forall k :: 0 <= k < i ==> !SameNodes(cs[k], cs[i])) ensures cs[i] in r {
        DedupIntoFirst([], cs, i);
      }
    }
    assert cs != [] ==> r != [] by {
      if cs != [] {
        DedupIntoFirst([], cs, 0);
      }
    }
    r
  }

  /** The registered cycles, in the dictionary's order (`cycles.values()`). */
  function CyclesOf(reg: Registry): (cs: seq<seq<string>>)
    requires forall i :: 0 <= i < |reg.order| ==> reg.order[i] in reg.cycles
    ensures |cs| == |reg.order|
    ensures forall i :: 0 <= i < |cs| ==> cs[i] == reg.cycles[reg.order[i]]
    decreases |reg.order|
  {
    if reg.order == [] then []
    else [reg.cycles[reg.order[0]]] + CyclesOf(Registry(reg.order[1..], reg.cycles))
  }

  /** Every node of `c` is known and each imports the next at some line, as `description` needs. */
  predicate Describable(g: Graph, c: seq<string>) {
    && (forall i :: 0 <= i < |c| ==> c[i] in g.nodes)
    && (forall i :: 1 <= i < |c| ==> Lines(g.nodes[c[i]], g.nodes[c[i - 1]].fullPath) != [])
  }

  /** The part `" -> item: Line L"`, with `L` the first line at which `prev` imports `item`. */
  function Arrow(g: Graph, prev: string, item: string): string
    requires prev in g.nodes && item in g.nodes
    requires Lines(g.nodes[item], g.nodes[prev].fullPath) != []
  {
    " -> " + g.nodes[item].name + ": Line " + NatToString(Lines(g.nodes[item], g.nodes[prev].fullPath)[0])
  }

  /** The arrows for the nodes of `c` from position `i` on. */
  function Arrows(g: Graph, c: seq<string>, i: nat): string
    requires Describable(g, c) && 1 <= i
    decreases |c| - i
  {
    if i >= |c| then "" else Arrow(g, c[i - 1], c[i]) + Arrows(g, c, i + 1)
  }

  /**
   `CyclePath.description`: empty for a cycle of at most one node; otherwise the
   first node's name, an arrow to each later node, and `" =>> "` back to the first.
   */
  function Describe(g: Graph, c: seq<string>): (s: string)
    requires Describable(g, c)
    ensures |c| <= 1 <==> s == ""
    ensures |c| > 1 ==> StartsWith(s, g.nodes[c[0]].name) && EndsWith(s, " =>> " + g.nodes[c[0]].name)
  {
    if |c| > 1 then
      var name := g.nodes[c[0]].name;
      var s := name + Arrows(g, c, 1) + " =>> " + name;
      assert s[..|name|] == name;
      assert s[|s| - |" =>> " + name|..] == " =>> " + name;
      s
    else ""
  }

  lemma OccursShift(s: string, sub: string, p: int, pre: string, post: string)
    requires OccursAt(s, sub, p)
    ensures OccursAt(pre + s + post, sub, |pre| + p)
  {
    assert (pre + s + post)[|pre| + p..|pre| + p + |sub|] == s[p..p + |sub|];
  }

  /** Every arrow from position `i` on occurs in `Arrows(g, c, i)`. */
  lemma {:induction false} ArrowsContain(g: Graph, c: seq<string>, i: nat, j: nat)
    requires Describable(g, c) && 1 <= i <= j < |c|
    ensures Contains(Arrows(g, c, i), Arrow(g, c[j - 1], c[j]))
    decreases j - i
  {
    var head := Arrow(g, c[i - 1], c[i]);
    var rest := Arrows(g, c, i + 1);
    if j == i {
      OccursShift(head, head, 0, "", rest);
      assert "" + head + rest == Arrows(g, c, i);
    } else {
      ArrowsContain(g, c, i + 1, j);
      var p :| OccursAt(rest, Arrow(g, c[j - 1], c[j]), p);
      OccursShift(rest, Arrow(g, c[j - 1], c[j]), p, head, "");
      assert head + rest + "" == Arrows(g, c, i);
    }
  }

  /**
   The description names every step of the cycle with the first line of the
   import it stands for.
   */
  lemma DescribeMentions(g: Graph, c: seq<string>, j: nat)
    requires Describable(g, c) && 1 <= j < |c|
    ensures Contains(Describe(g, c), Arrow(g, c[j - 1], c[j]))
  {
    ArrowsContain(g, c, 1, j);
    var name := g.nodes[c[0]].name;
    var p :| OccursAt(Arrows(g, c, 1), Arrow(g, c[j - 1], c[j]), p);
    OccursShift(Arrows(g, c, 1), Arrow(g, c[j - 1], c[j]), p, name, " =>> " + name);
    assert name + Arrows(g, c, 1) + (" =>> " + name) == Describe(g, c);
  }

  /** A two-node cycle reads `a -> b: Line L =>> a`. */
  lemma DescribeTwo(g: Graph, a: string, b: string)
    requires a in g.nodes && b in g.nodes && Lines(g.nodes[b], g.nodes[a].fullPath) != []
    ensures Describable(g, [a, b])
    ensures Describe(g, [a, b])
         == g.nodes[a].name + " -> " + g.nodes[b].name + ": Line "
            + NatToString(Lines(g.nodes[b], g.nodes[a].fullPath)[0]) + " =>> " + g.nodes[a].name
  {
    assert Arrows(g, [a, b], 2) == "";
  }

  /** A prefix of a describable cycle is describable. */
  lemma DescribablePrefix(g: Graph, c: seq<string>, x: string)
    requires Describable(g, c + [x])
    ensures Describable(g, c)
  {
    assert forall i :: 0 <= i < |c| ==> (c + [x])[i] == c[i];
  }

  /** The arrows of `c + [x]` are those of `c` followed by the arrow to `x`. */
  lemma {:induction false} ArrowsSnoc(g: Graph, c: seq<string>, x: string, i: nat)
    requires Describable(g, c + [x]) && Describable(g, c) && 1 <= i <= |c|
    ensures Arrows(g, c + [x], i) == Arrows(g, c, i) + Arrow(g, (c + [x])[|c| - 1], (c + [x])[|c|])
    decreases |c| - i
  {
    var d := c + [x];
    assert d[i - 1] == c[i - 1];
    if i == |c| {
      assert d[i] == x;
      assert Arrows(g, d, i + 1) == "";
      assert Arrows(g, c, i) == "";
    } else {
      assert d[i] == c[i];
      ArrowsSnoc(g, c, x, i + 1);
    }
  }

  /**
   Extending a cycle of at least two nodes by `x` puts the arrow from its last
   node to `x` just before the closing `" =>> "` and first name, and changes
   nothing else. With
   `DescribeTwo` this fixes the whole text of every description.
   */
  lemma DescribeSnoc(g: Graph, c: seq<string>, x: string)
    requires |c| >= 2 && Describable(g, c + [x])
    ensures Describable(g, c)
    ensures var d := Describe(g, c); var tail := " =>> " + g.nodes[c[0]].name;
      |tail| <= |d| && Describe(g, c + [x]) == d[..|d| - |tail|] + Arrow(g, (c + [x])[|c| - 1], (c + [x])[|c|]) + tail
  {
    DescribablePrefix(g, c, x);
    ArrowsSnoc(g, c, x, 1);
    var name := g.nodes[c[0]].name;
    var tail := " =>> " + name;
    var d := Describe(g, c);
    assert d == name + Arrows(g, c, 1) + tail;
    assert d[..|d| - |tail|] == name + Arrows(g, c, 1);
    assert (c + [x])[0] == c[0];
    assert Describe(g, c + [x]) == name + Arrows(g, c + [x], 1) + tail;
  }

  /** Every genuine cycle of a well-formed graph can be described. */
  lemma CycleDescribable(g: Graph, c: seq<string>)
    requires Valid(g) && IsCycle(g, c)
    ensures Describable(g, c)
  {
    forall i | 1 <= i < |c| ensures Lines(g.nodes[c[i]], g.nodes[c[i - 1]].fullPath) != [] {
      assert c[i] in g.nodes[c[i - 1]].imports;
      assert multiset(g.nodes[c[i - 1]].imports)[c[i]] > 0;
      assert EdgesConsistent(g);
      assert PathsAgree(g);
    }
  }

  /** Every registered cycle is listed by `CyclesOf`, so the list is empty exactly when the registry is. */
  lemma CyclesListed(reg: Registry)
    requires forall k :: k in reg.cycles <==> k in reg.order
    ensures forall k :: k in reg.cycles ==> reg.cycles[k] in CyclesOf(reg)
    ensures CyclesOf(reg) == [] <==> reg.cycles == map[]
  {
    var cs := CyclesOf(reg);
    forall k | k in reg.cycles ensures reg.cycles[k] in cs {
      var i :| 0 <= i < |reg.order| && reg.order[i] == k;
      assert cs[i] == reg.cycles[k];
    }
    if reg.cycles != map[] {
      var k :| k in reg.cycles;
      assert reg.cycles[k] in cs;
    }
  }

  /**
   The cycles `detect_cycles` reports, after the search and the dedup: each a
   genuine simple cycle (so one `description` can render), no two over the same
   nodes, in the order the search registered them; every registered cycle is
   represented, and the list is empty exactly when the search registered nothing.
   */
  function Reported(g: Graph, entry: seq<string>): (cs: seq<seq<string>>)
    requires Valid(g) && forall i :: 0 <= i < |entry| ==> entry[i] in g.nodes
    ensures forall i :: 0 <= i < |cs| ==> IsCycle(g, cs[i]) && Describable(g, cs[i])
    ensures Unrelated(cs)
    ensures Subsequence(cs, CyclesOf(SearchAll(g, entry)))
    ensures forall k :: k in SearchAll(g, entry).cycles ==> Represented(cs, SearchAll(g, entry).cycles[k])
    ensures cs == [] <==> SearchAll(g, entry).cycles == map[]
  {
    var reg := SearchAll(g, entry);
    var cs := Dedup(CyclesOf(reg));
    ReportedGenuine(g, reg, cs);
    AllDescribable(g, cs);
    CyclesListed(reg);
    cs
  }

  /** Every reported cycle is a genuine simple cycle of the graph. */
  lemma ReportedGenuine(g: Graph, reg: Registry, cs: seq<seq<string>>)
    requires Good(g, reg) && cs == Dedup(CyclesOf(reg))
    ensures forall i :: 0 <= i < |cs| ==> IsCycle(g, cs[i])
  {
    StoredCycles(g, reg);
  }

  /** The stored cycles of a registry the search built are genuine. */
  lemma StoredCycles(g: Graph, reg: Registry)
    requires Good(g, reg)
    ensures forall c :: c in CyclesOf(reg) ==> IsCycle(g, c)
  {
    var cs := CyclesOf(reg);
    forall c | c in cs ensures IsCycle(g, c) {
      var k :| 0 <= k < |cs| && cs[k] == c;
      assert reg.order[k] in reg.cycles;
    }
  }

  /** Every cycle of a list of genuine cycles can be described. */
  lemma AllDescribable(g: Graph, cs: seq<seq<string>>)
    requires Valid(g) && forall i :: 0 <= i < |cs| ==> IsCycle(g, cs[i])
    ensures forall i :: 0 <= i < |cs| ==> Describable(g, cs[i])
  {
    forall i | 0 <= i < |cs| ensures Describable(g, cs[i]) {
      CycleDescribable(g, cs[i]);
    }
  }

  /**
   `detect_cycles`: one description per reported cycle, in order, each naming
   every import of its cycle. The report is empty exactly when the search
   registered nothing: always for an acyclic graph and, when the entry list
   reaches every node within one import, only for one.
   */
  function DetectCycles(g: Graph, entry: seq<string>): (out: seq<string>)
    requires Valid(g) && forall i :: 0 <= i < |entry| ==> entry[i] in g.nodes
    ensures |out| == |Reported(g, entry)|
    ensures forall i :: 0 <= i < |out| ==> out[i] == Describe(g, Reported(g, entry)[i])
    ensures forall i, j :: 0 <= i < |out| && 1 <= j < |Reported(g, entry)[i]| ==>
              Contains(out[i], Arrow(g, Reported(g, entry)[i][j - 1], Reported(g, entry)[i][j]))
    ensures out == [] <==> SearchAll(g, entry).cycles == map[]
    ensures !HasCycle(g) ==> out == []
    ensures Covers(g, entry) ==> (out != [] <==> HasCycle(g))
  {
    var cs := Reported(g, entry);
    AllMention(g, cs);
    seq(|cs|, i requires 0 <= i < |cs| => Describe(g, cs[i]))
  }

  /** Every description of a list of cycles names each step of its cycle. */
  lemma AllMention(g: Graph, cs: seq<seq<string>>)
    requires forall i :: 0 <= i < |cs| ==> Describable(g, cs[i])
    ensures forall i, j :: 0 <= i < |cs| && 1 <= j < |cs[i]| ==>
              Contains(Describe(g, cs[i]), Arrow(g, cs[i][j - 1], cs[i][j]))
  {
    forall i, j | 0 <= i < |cs| && 1 <= j < |cs[i]| ensures Contains(Describe(g, cs[i]), Arrow(g, cs[i][j - 1], cs[i][j])) {
      DescribeMentions(g, cs[i], j);
    }
  }

  /**
   End to end: on the entry list `read_project` returns, `detect_cycles`
   reports something exactly when the project's import graph has a cycle.
   */
  lemma ProjectCycles(rootPath: string, ignore: seq<string>, files: seq<SourceFile>, disk: set<string>)
    ensures var p := ReadProject(rootPath, ignore, files, disk);
      Valid(p.graph) && (forall i :: 0 <= i < |p.entry| ==> p.entry[i] in p.graph.nodes) &&
      (DetectCycles(p.graph, p.entry) != [] <==> HasCycle(p.graph))
  {
    ReadProjectValid(rootPath, ignore, files, disk);
  }
}

=== FILE: search.dfy ===
/**
 Cycle search over the import graph: the path-carrying depth-first search of
 `_detect_cycles`, the registration of a found cycle by `_register_cycle`, and
 the two passes of `detect_cycles` (roots first, then the other entry nodes).
 */
module Search {
  import opened Strings
  import opened ImportGraph

  /**
   The `cycles` dictionary: for each node name under which a cycle was found,
   the cycle as a sequence of path keys; `order` is the insertion order of the
   names (a re-registration keeps a name's place).
   */
  datatype Registry = Registry(order: seq<string>, cycles: map<string, seq<string>>)

  function EmptyRegistry(): Registry {
    Registry([], map[])
  }

  /** A simple path of the graph: distinct nodes, each importing the next. */
  ghost predicate IsPath(g: Graph, p: seq<string>) {
    && Distinct(p)
    && (forall i :: 0 <= i < |p| ==> p[i] in g.nodes)
    && (forall i :: 0 <= i < |p| - 1 ==> p[i + 1] in g.nodes[p[i]].imports)
  }

  /** A simple cycle: a simple path whose last node imports its first. */
  ghost predicate IsCycle(g: Graph, c: seq<string>) {
    && |c| >= 1
    && IsPath(g, c)
    && c[0] in g.nodes[c[|c| - 1]].imports
  }

  ghost predicate HasCycle(g: Graph) {
    exists c :: IsCycle(g, c)
  }

  /** `node` may follow `p`: it is a node, imported by the last node of `p` if there is one. */
  ghost predicate Enters(g: Graph, p: seq<string>, node: string) {
    node in g.nodes && (p != [] ==> p[|p| - 1] in g.nodes && node in g.nodes[p[|p| - 1]].imports)
  }

  /**
   What every registry the search builds satisfies: each name listed once, and
   under each name a genuine cycle that starts at a node of that name.
   */
  ghost predicate Good(g: Graph, reg: Registry) {
    && Distinct(reg.order)
    && (forall k :: k in reg.cycles <==> k in reg.order)
    && (forall k :: k in reg.cycles ==> IsCycle(g, reg.cycles[k]) && g.nodes[reg.cycles[k][0]].name == k)
  }

  /**
   `b` extends `a`: no name disappears or moves, and no stored cycle gets longer.
   */
  ghost predicate Grows(a: Registry, b: Registry) {
    && a.cycles.Keys <= b.cycles.Keys
    && |a.order| <= |b.order| && b.order[..|a.order|] == a.order
    && (forall k :: k in a.cycles ==> |b.cycles[k]| <= |a.cycles[k]|)
  }

  lemma GrowsTrans(a: Registry, b: Registry, c: Registry)
    requires Grows(a, b) && Grows(b, c)
    ensures Grows(a, c)
  {
    assert c.order[..|a.order|] == c.order[..|b.order|][..|a.order|];
  }

  /** `path.index(node)`: the first position of `node` in `path`. */
  function IndexOf(path: seq<string>, node: string): (i: nat)
    requires node in path
    ensures i < |path| && path[i] == node
    ensures forall j :: 0 <= j < i ==> path[j] != node
  {
    if path[0] == node then 0 else 1 + IndexOf(path[1..], node)
  }

  /** `path[path.index(node):]`: the suffix of `path` from the first `node` on. */
  function CycleAt(path: seq<string>, node: string): (c: seq<string>)
    requires node in path
    ensures 1 <= |c| <= |path| && c[0] == node
    ensures c == path[|path| - |c|..]
    ensures forall j :: 0 <= j < |path| - |c| ==> path[j] != node
  {
    path[IndexOf(path, node)..]
  }

  /**
   `_register_cycle`: store `CycleAt(path, node)` under `node`'s name, unless
   the cycle already stored under that name is strictly shorter.
   */
  function Register(g: Graph, reg: Registry, path: seq<string>, node: string): (r: Registry)
    requires node in path && node in g.nodes
    ensures var name := g.nodes[node].name;
      && r.cycles.Keys == reg.cycles.Keys + {name}
      && (forall k :: k in reg.cycles && k != name ==> r.cycles[k] == reg.cycles[k])
      && (name in reg.cycles && |reg.cycles[name]| < |CycleAt(path, node)| ==> r == reg)
      && (!(name in reg.cycles && |reg.cycles[name]| < |CycleAt(path, node)|) ==> r.cycles[name] == CycleAt(path, node))
      && (name in reg.cycles ==> r.order == reg.order)
      && (name !in reg.cycles ==> r.order == reg.order + [name])
    ensures Grows(reg, r)
  {
    var name := g.nodes[node].name;
    var cycle := CycleAt(path, node);
    if name in reg.cycles && |reg.cycles[name]| < |cycle| then reg
    else
      var order := if name in reg.cycles then reg.order else reg.order + [name];
      var r := Registry(order, reg.cycles[name := cycle]);
      assert r.order[..|reg.order|] == reg.order;
      r
  }

  /** The nodes of the graph not on `path`: the measure the search decreases. */
  function Unseen(g: Graph, path: seq<string>): nat {
    |g.nodes.Keys - set x | x in path|
  }

  lemma UnseenShrinks(g: Graph, path: seq<string>, node: string)
    requires node in g.nodes && node !in path
    ensures Unseen(g, path + [node]) < Unseen(g, path)
  {
    var before := g.nodes.Keys - set x | x in path;
    var after := g.nodes.Keys - set x | x in path + [node];
    assert after == before - {node};
    assert node in before;
  }

  /**
   `_detect_cycles(node, path)`: a node already on the path closes a cycle and
   is registered; otherwise the search continues into each import of `node`
   with `node` appended to the path. The result says whether any cycle was met.
   */
  function Visit(g: Graph, node: string, path: seq<string>, reg: Registry): (r: (Registry, bool))
    requires Closed(g) && node in g.nodes
    ensures !r.1 ==> r.0 == reg
    ensures r.1 ==> r.0.cycles != map[]
    ensures Grows(reg, r.0)
    decreases Unseen(g, path), 0, 0
  {
    if node in path then (Register(g, reg, path, node), true)
    else
      UnseenShrinks(g, path, node);
      VisitAll(g, g.nodes[node].imports, path + [node], reg)
  }

  /** The loop over a node's imports: every child is searched, and any hit makes the result true. */
  function VisitAll(g: Graph, children: seq<string>, path: seq<string>, reg: Registry): (r: (Registry, bool))
    requires Closed(g) && forall i :: 0 <= i < |children| ==> children[i] in g.nodes
    ensures !r.1 ==> r.0 == reg
    ensures r.1 ==> r.0.cycles != map[]
    ensures Grows(reg, r.0)
    decreases Unseen(g, path), 1, |children|
  {
    if children == [] then (reg, false)
    else
      var a := Visit(g, children[0], path, reg);
      var b := VisitAll(g, children[1..], path, a.0);
      GrowsTrans(reg, a.0, b.0);
      (b.0, a.1 || b.1)
  }

  /** A suffix of a simple path that the path's last node imports back into is a simple cycle. */
  lemma CycleAtIsCycle(g: Graph, path: seq<string>, node: string)
    requires IsPath(g, path) && node in path
    requires node in g.nodes[path[|path| - 1]].imports
    ensures IsCycle(g, CycleAt(path, node))
  {
    var c := CycleAt(path, node);
    var off := |path| - |c|;
    assert forall i :: 0 <= i < |c| ==> c[i] == path[off + i];
  }

  /** Registering keeps every stored cycle genuine. */
  lemma RegisterGood(g: Graph, reg: Registry, path: seq<string>, node: string)
    requires Good(g, reg) && IsPath(g, path) && node in path && Enters(g, path, node)
    ensures Good(g, Register(g, reg, path, node))
  {
    var r := Register(g, reg, path, node);
    var name := g.nodes[node].name;
    if !(name in reg.cycles && |reg.cycles[name]| < |CycleAt(path, node)|) {
      CycleAtIsCycle(g, path, node);
      assert r.cycles == reg.cycles[name := CycleAt(path, node)];
      assert Distinct(r.order) && (forall k :: k in r.cycles <==> k in r.order) by {
        if name !in reg.cycles {
          assert name !in reg.order;
        }
      }
      forall k | k in r.cycles ensures IsCycle(g, r.cycles[k]) && g.nodes[r.cycles[k][0]].name == k {
        if k != name {
          assert r.cycles[k] == reg.cycles[k];
        }
      }
    }
  }

  lemma PathExtends(g: Graph, path: seq<string>, node: string)
    requires IsPath(g, path) && Enters(g, path, node) && node !in path
    ensures IsPath(g, path + [node])
  {
  }

  /**
   Every cycle the search registers is a genuine simple cycle of the graph,
   starting at a node of the name it is stored under.
   */
  lemma {:induction false} VisitGood(g: Graph, node: string, path: seq<string>, reg: Registry)
    requires Closed(g) && Good(g, reg) && IsPath(g, path) && Enters(g, path, node)
    ensures Good(g, Visit(g, node, path, reg).0)
    decreases Unseen(g, path), 0, 0
  {
    if node in path {
      RegisterGood(g, reg, path, node);
    } else {
      UnseenShrinks(g, path, node);
      PathExtends(g, path, node);
      VisitAllGood(g, g.nodes[node].imports, path + [node], reg);
    }
  }

  lemma {:induction false} VisitAllGood(g: Graph, children: seq<string>, path: seq<string>, reg: Registry)
    requires Closed(g) && Good(g, reg) && IsPath(g, path) && path != []
    requires forall i :: 0 <= i < |children| ==> children[i] in g.nodes[path[|path| - 1]].imports
    ensures Good(g, VisitAll(g, children, path, reg).0)
    decreases Unseen(g, path), 1, |children|
  {
    if children != [] {
      assert children[0] in g.nodes by {
        assert Closed(g);
        assert path[|path| - 1] in g.nodes;
      }
      VisitGood(g, children[0], path, reg);
      var a := Visit(g, children[0], path, reg);
      VisitAllGood(g, children[1..], path, a.0);
    }
  }

  /** A walk of the graph: at least one node, each importing the next. */
  ghost predicate Walk(g: Graph, w: seq<string>) {
    && |w| >= 1
    && (forall i :: 0 <= i < |w| ==> w[i] in g.nodes)
    && (forall i :: 0 <= i < |w| - 1 ==> w[i + 1] in g.nodes[w[i]].imports)
  }

  /**
   The search is exhaustive: when a walk from `w[0]` ends on a node of the path
   or of the walk itself, searching from `w[0]` meets a cycle.
   */
  lemma {:induction false} VisitFinds(g: Graph, w: seq<string>, path: seq<string>, reg: Registry)
    requires Closed(g) && Walk(g, w) && w[|w| - 1] in path + w[..|w| - 1]
    ensures Visit(g, w[0], path, reg).1
    decreases |w|, 0, 0
  {
    if w[0] !in path {
      assert |w| >= 2;
      var children := g.nodes[w[0]].imports;
      var w' := w[1..];
      assert w'[|w'| - 1] == w[|w| - 1];
      assert (path + [w[0]]) + w'[..|w'| - 1] == path + w[..|w| - 1] by {
        assert w[..|w| - 1] == [w[0]] + w'[..|w'| - 1];
      }
      assert Walk(g, w') by {
        forall i | 0 <= i < |w'| - 1 ensures w'[i + 1] in g.nodes[w'[i]].imports {
          assert w'[i] == w[i + 1] && w'[i + 1] == w[i + 2];
        }
      }
      assert Closed(g);
      VisitAllFinds(g, children, path + [w[0]], reg, w');
    }
  }

  lemma {:induction false} VisitAllFinds(g: Graph, children: seq<string>, path: seq<string>, reg: Registry, w: seq<string>)
    requires Closed(g) && forall i :: 0 <= i < |children| ==> children[i] in g.nodes
    requires Walk(g, w) && w[0] in children && w[|w| - 1] in path + w[..|w| - 1]
    ensures VisitAll(g, children, path, reg).1
    decreases |w|, 1, |children|
  {
    if children[0] == w[0] {
      VisitFinds(g, w, path, reg);
    } else {
      var a := Visit(g, children[0], path, reg);
      assert w[0] in children[1..];
      VisitAllFinds(g, children[1..], path, a.0, w);
    }
  }

  /**
   One loop of `detect_cycles` over the entry nodes: when `roots` holds, each
   node without importers is searched from an empty path; otherwise each node
   with importers is.
   */
  function Pass(g: Graph, nodes: seq<string>, roots: bool, reg: Registry): (r: Registry)
    requires Closed(g) && forall i :: 0 <= i < |nodes| ==> nodes[i] in g.nodes
    ensures Grows(reg, r)
    decreases |nodes|
  {
    if nodes == [] then reg
    else
      var n := nodes[0];
      var reg' := if IsRoot(g.nodes[n]) == roots then Visit(g, n, [], reg).0 else reg;
      var r := Pass(g, nodes[1..], roots, reg');
      GrowsTrans(reg, reg', r);
      r
  }

  /**
   The roots pass, then the non-roots pass, from an empty registry. Every
   registered cycle is genuine, so a non-empty result means the graph has a
   cycle; when the entry nodes reach every node within one import, the search
   registers something exactly when the graph has a cycle.
   */
  function SearchAll(g: Graph, nodes: seq<string>): (r: Registry)
    requires Closed(g) && forall i :: 0 <= i < |nodes| ==> nodes[i] in g.nodes
    ensures Good(g, r)
    ensures r.cycles != map[] ==> HasCycle(g)
    ensures Covers(g, nodes) ==> (r.cycles != map[] <==> HasCycle(g))
  {
    var r := Pass(g, nodes, false, Pass(g, nodes, true, EmptyRegistry()));
    PassesSound(g, nodes, r);
    PassesComplete(g, nodes, r);
    r
  }

  lemma {:induction false} PassGood(g: Graph, nodes: seq<string>, roots: bool, reg: Registry)
    requires Closed(g) && forall i :: 0 <= i < |nodes| ==> nodes[i] in g.nodes
    requires Good(g, reg)
    ensures Good(g, Pass(g, nodes, roots, reg))
    decreases |nodes|
  {
    if nodes != [] {
      var n := nodes[0];
      if IsRoot(g.nodes[n]) == roots {
        VisitGood(g, n, [], reg);
      }
      var reg' := if IsRoot(g.nodes[n]) == roots then Visit(g, n, [], reg).0 else reg;
      PassGood(g, nodes[1..], roots, reg');
    }
  }

  /** A cycle can be reached from `x`: some walk from `x` ends on a node it already visited. */
  ghost predicate CycleFrom(g: Graph, x: string) {
    exists w :: Walk(g, w) && w[0] == x && w[|w| - 1] in w[..|w| - 1]
  }

  /** A pass that searches a node from which a cycle is reachable leaves a non-empty registry. */
  lemma {:induction false} PassFinds(g: Graph, nodes: seq<string>, roots: bool, reg: Registry, i: nat)
    requires Closed(g) && forall j :: 0 <= j < |nodes| ==> nodes[j] in g.nodes
    requires i < |nodes| && IsRoot(g.nodes[nodes[i]]) == roots && CycleFrom(g, nodes[i])
    ensures Pass(g, nodes, roots, reg).cycles != map[]
    decreases |nodes|
  {
    var n := nodes[0];
    var reg' := if IsRoot(g.nodes[n]) == roots then Visit(g, n, [], reg).0 else reg;
    if i == 0 {
      var w :| Walk(g, w) && w[0] == n && w[|w| - 1] in w[..|w| - 1];
      assert [] + w[..|w| - 1] == w[..|w| - 1];
      VisitFinds(g, w, [], reg);
      var r := Pass(g, nodes[1..], roots, reg');
      assert Grows(reg', r);
      assert exists k :: k in reg'.cycles;
    } else {
      PassFinds(g, nodes[1..], roots, reg', i - 1);
    }
  }

  /** Once a registry holds a cycle, it holds one forever. */
  lemma KeepsCycles(a: Registry, b: Registry)
    requires Grows(a, b) && a.cycles != map[]
    ensures b.cycles != map[]
  {
    var k :| k in a.cycles;
    assert k in b.cycles;
  }

  /** After both passes every registered cycle is genuine, so a non-empty result means the graph has a cycle. */
  lemma PassesSound(g: Graph, nodes: seq<string>, r: Registry)
    requires Closed(g) && forall i :: 0 <= i < |nodes| ==> nodes[i] in g.nodes
    requires r == Pass(g, nodes, false, Pass(g, nodes, true, EmptyRegistry()))
    ensures Good(g, r)
    ensures r.cycles != map[] ==> HasCycle(g)
  {
    PassGood(g, nodes, true, EmptyRegistry());
    var first := Pass(g, nodes, true, EmptyRegistry());
    PassGood(g, nodes, false, first);
    if r.cycles != map[] {
      var k :| k in r.cycles;
      assert IsCycle(g, r.cycles[k]);
    }
  }

  /** Every node of a cycle has a walk back onto itself. */
  lemma CycleReachable(g: Graph, c: seq<string>)
    requires IsCycle(g, c)
    ensures CycleFrom(g, c[0])
  {
    var w := c + [c[0]];
    assert w[..|w| - 1] == c;
    assert Walk(g, w) by {
      forall i | 0 <= i < |w| - 1 ensures w[i + 1] in g.nodes[w[i]].imports {
        if i < |c| - 1 {
          assert w[i] == c[i] && w[i + 1] == c[i + 1];
        }
      }
    }
  }

  /** A node that imports the start of a cycle also reaches a cycle. */
  lemma ImporterReachable(g: Graph, c: seq<string>, e: string)
    requires IsCycle(g, c) && e in g.nodes && c[0] in g.nodes[e].imports
    ensures CycleFrom(g, e)
  {
    var w := [e] + c + [c[0]];
    assert w[|w| - 1] == c[0] && w[1] == c[0];
    assert w[1] in w[..|w| - 1];
    assert Walk(g, w) by {
      forall i | 0 <= i < |w| - 1 ensures w[i + 1] in g.nodes[w[i]].imports {
        if 1 <= i < |c| {
          assert w[i] == c[i - 1] && w[i + 1] == c[i];
        } else if i == |c| {
          assert w[i] == c[|c| - 1] && w[i + 1] == c[0];
        }
      }
    }
  }

  /**
   When the entry nodes reach every node within one import, both passes
   register some cycle exactly when the graph has one.
   */
  lemma PassesComplete(g: Graph, nodes: seq<string>, r: Registry)
    requires Closed(g) && forall i :: 0 <= i < |nodes| ==> nodes[i] in g.nodes
    requires r == Pass(g, nodes, false, Pass(g, nodes, true, EmptyRegistry()))
    ensures Covers(g, nodes) ==> (r.cycles != map[] <==> HasCycle(g))
  {
    PassesSound(g, nodes, r);
    if Covers(g, nodes) && HasCycle(g) {
      var c :| IsCycle(g, c);
      var x := c[0];
      var e: string;
      if x in nodes {
        e := x;
        CycleReachable(g, c);
      } else {
        assert Covers(g, nodes);
        e :| e in nodes && e in g.nodes && x in g.nodes[e].imports;
        ImporterReachable(g, c, e);
      }
      var i :| 0 <= i < |nodes| && nodes[i] == e;
      var first := Pass(g, nodes, true, EmptyRegistry());
      if IsRoot(g.nodes[e]) {
        PassFinds(g, nodes, true, EmptyRegistry(), i);
        KeepsCycles(first, Pass(g, nodes, false, first));
      } else {
        PassFinds(g, nodes, false, first, i);
      }
    }
  }
}

=== FILE: strings.dfy ===
/**
 Text helpers with Python's meaning: `str.split` on a one-character separator,
 `sep.join`, prefix/suffix/substring tests and `str()` of a non-negative integer.
 */
module Strings {

  /** No element occurs twice. */
  predicate Distinct<T(==)>(s: seq<T>) {
    forall i, j :: 0 <= i < j < |s| ==> s[i] != s[j]
  }

  /**
   `a` is `b` with some elements left out and the rest kept in their order: at
   each element of `b`, either it is the next element of `a` or it is skipped.
   */
  ghost predicate Subsequence<T>(a: seq<T>, b: seq<T>)
    decreases |b|
  {
    if b == [] then a == []
    else (a != [] && a[0] == b[0] && Subsequence(a[1..], b[1..])) || Subsequence(a, b[1..])
  }

  /** Keeping the first element of both. */
  lemma SubsequenceCons<T>(x: T, a: seq<T>, b: seq<T>)
    requires Subsequence(a, b)
    ensures Subsequence([x] + a, [x] + b)
  {
    assert ([x] + a)[1..] == a && ([x] + b)[1..] == b;
  }

  /** Skipping the first element of `b`. */
  lemma SubsequenceSkip<T>(x: T, a: seq<T>, b: seq<T>)
    requires Subsequence(a, b)
    ensures Subsequence(a, [x] + b)
  {
    assert ([x] + b)[1..] == b;
  }

  /** A subsequence holds only elements of the whole, each at most as often. */
  lemma {:induction false} SubsequenceMembers<T>(a: seq<T>, b: seq<T>)
    requires Subsequence(a, b)
    ensures |a| <= |b|
    ensures forall x :: x in a ==> x in b
    decreases |b|
  {
    if b != [] {
      if a != [] && a[0] == b[0] && Subsequence(a[1..], b[1..]) {
        SubsequenceMembers(a[1..], b[1..]);
        assert forall x :: x in a ==> x == a[0] || x in a[1..];
      } else {
        SubsequenceMembers(a, b[1..]);
      }
    }
  }

  predicate StartsWith(s: string, prefix: string) {
    |prefix| <= |s| && s[..|prefix|] == prefix
  }

  predicate EndsWith(s: string, suffix: string) {
    |suffix| <= |s| && s[|s| - |suffix|..] == suffix
  }

  /** `s.split(sep)`: the pieces between separators, always at least one (possibly empty) piece. */
  function Split(s: string, sep: char): (parts: seq<string>)
    ensures |parts| >= 1
    ensures forall i :: 0 <= i < |parts| ==> sep !in parts[i]
  {
    if s == [] then [""]
    else
      var rest := Split(s[1..], sep);
      if s[0] == sep then [""] + rest
      else [[s[0]] + rest[0]] + rest[1..]
  }

  /** `sep.join(parts)`. */
  function Join(parts: seq<string>, sep: char): (s: string)
    ensures |parts| == 1 ==> s == parts[0]
    ensures |s| == (if parts == [] then 0 else |parts| - 1) + SumLengths(parts)
  {
    if parts == [] then ""
    else if |parts| == 1 then parts[0]
    else parts[0] + [sep] + Join(parts[1..], sep)
  }

  function SumLengths(parts: seq<string>): nat {
    if parts == [] then 0 else |parts[0]| + SumLengths(parts[1..])
  }

  /** Every occurrence of `a` in `s` replaced by `b`, character by character. */
  function Replace(s: string, a: char, b: char): (r: string)
    ensures |r| == |s|
    ensures forall i :: 0 <= i < |s| ==> r[i] == (if s[i] == a then b else s[i])
  {
    if s == [] then [] else [if s[0] == a then b else s[0]] + Replace(s[1..], a, b)
  }

  /** Joining the pieces of a split with another separator is character replacement. */
  lemma {:induction false} JoinSplitIsReplace(s: string, a: char, b: char)
    ensures Join(Split(s, a), b) == Replace(s, a, b)
    decreases |s|
  {
    if s != [] {
      var rest := Split(s[1..], a);
      JoinSplitIsReplace(s[1..], a, b);
      if s[0] == a {
        assert Split(s, a) == [""] + rest;
        assert ([""] + rest)[1..] == rest;
      } else if |rest| == 1 {
        assert Split(s, a) == [[s[0]] + rest[0]];
      } else {
        assert Split(s, a) == [[s[0]] + rest[0]] + rest[1..];
        assert ([[s[0]] + rest[0]] + rest[1..])[1..] == rest[1..];
        assert Join(rest, b) == rest[0] + [b] + Join(rest[1..], b);
      }
    }
  }

  /** Splitting then joining with the same separator gives back the text. */
  lemma {:induction false} JoinSplit(s: string, sep: char)
    ensures Join(Split(s, sep), sep) == s
  {
    JoinSplitIsReplace(s, sep, sep);
    assert Replace(s, sep, sep) == s;
  }

  /** Joining separator-free pieces then splitting gives back the pieces. */
  lemma {:induction false} SplitJoin(parts: seq<string>, sep: char)
    requires |parts| >= 1
    requires forall i :: 0 <= i < |parts| ==> sep !in parts[i]
    ensures Split(Join(parts, sep), sep) == parts
    decreases |parts|, |parts[0]|
  {
    if |parts| == 1 {
      SplitFree(parts[0], sep);
    } else if parts[0] == "" {
      SplitJoin(parts[1..], sep);
      assert Join(parts, sep) == [sep] + Join(parts[1..], sep);
      assert ([sep] + Join(parts[1..], sep))[1..] == Join(parts[1..], sep);
    } else {
      var p0 := parts[0];
      var shorter := [p0[1..]] + parts[1..];
      SplitJoin(shorter, sep);
      assert Join(parts, sep) == [p0[0]] + Join(shorter, sep);
      assert ([p0[0]] + Join(shorter, sep))[1..] == Join(shorter, sep);
      assert [p0[0]] + p0[1..] == p0;
    }
  }

  /** A separator-free text splits into itself. */
  lemma {:induction false} SplitFree(s: string, sep: char)
    requires sep !in s
    ensures Split(s, sep) == [s]
    decreases |s|
  {
    if s != [] {
      assert sep !in s[1..];
      SplitFree(s[1..], sep);
      assert [s[0]] + s[1..] == s;
    }
  }

  /** `sub` occurs in `s` starting at position `i`. */
  predicate OccursAt(s: string, sub: string, i: int) {
    0 <= i && i + |sub| <= |s| && s[i..i + |sub|] == sub
  }

  /** `sub` occurs at some position of `s`. */
  ghost predicate Occurs(s: string, sub: string) {
    exists i :: OccursAt(s, sub, i)
  }

  /** `sub in s` for texts: `sub` occurs at some position of `s`. */
  function Contains(s: string, sub: string): (b: bool)
    ensures b <==> Occurs(s, sub)
    decreases |s|
  {
    if StartsWith(s, sub) then
      assert OccursAt(s, sub, 0);
      true
    else if s == [] then
      assert forall i :: !OccursAt(s, sub, i);
      false
    else
      var r := Contains(s[1..], sub);
      assert forall i :: OccursAt(s[1..], sub, i) <==> OccursAt(s, sub, i + 1) by {
        forall i ensures OccursAt(s[1..], sub, i) <==> OccursAt(s, sub, i + 1) {
          if 0 <= i && i + |sub| <= |s| - 1 {
            assert s[1..][i..i + |sub|] == s[i + 1..i + 1 + |sub|];
          }
        }
      }
      assert !OccursAt(s, sub, 0);
      assert forall i :: OccursAt(s, sub, i) ==> OccursAt(s[1..], sub, i - 1);
      r
  }

  function DigitChar(d: nat): char
    requires d < 10
  {
    "0123456789"[d]
  }

  /** `str(n)` for a non-negative integer: decimal digits, no leading zero. */
  function NatToString(n: nat): (s: string)
    ensures |s| >= 1
    ensures forall i :: 0 <= i < |s| ==> '0' <= s[i] <= '9'
    ensures |s| > 1 ==> s[0] != '0'
    decreases n
  {
    if n < 10 then [DigitChar(n)] else NatToString(n / 10) + [DigitChar(n % 10)]
  }

  /** The number a string of decimal digits denotes. */
  function DecimalValue(s: string): nat
    requires forall i :: 0 <= i < |s| ==> '0' <= s[i] <= '9'
  {
    if s == [] then 0 else 10 * DecimalValue(s[..|s| - 1]) + (s[|s| - 1] as int - '0' as int)
  }

  /** Reading back the rendered decimal gives the number. */
  lemma {:induction false} NatToStringRoundTrip(n: nat)
    ensures DecimalValue(NatToString(n)) == n
    decreases n
  {
    if n >= 10 {
      NatToStringRoundTrip(n / 10);
      var s := NatToString(n);
      assert s[..|s| - 1] == NatToString(n / 10);
    }
  }
}

=== FILE: wrappers.dfy ===
/** Optional values: Python's `None` next to a present value. */
module Wrappers {

  datatype Option<+T> = None | Some(value: T)
}
